=== FILE: README.md ===
# Network manager decision logic, modelled in Dafny

This project models the decision and bookkeeping core of the Java network
manager (`ra.networkmanager`):

- the network-state registry and route selection of `NetworkManagerService`;
- the two peer directories (`InMemoryPeerDB` and the older `PeerDB`);
- the ack-latency statistics of a peer relationship (`P2PRelationship`);
- the relationship graph of `PeerRelationshipsDB`, over an abstract graph;
- the relationship-type name tables (`RelType`);
- the two periodic tasks, `NetworkDiscovery` and `DelayedSend`, as rules over
  a snapshot of network states and directory contents.

Everything is immutable datatypes and pure functions. The methods that keep a
loop (the peer-sharing sample and the discovery sweep) are proved against pure
reference definitions. Randomness is a parameter: `pick: nat` (reduced into the
range of the set drawn from) or a stream `rand: nat -> nat`. A Java exception
that the source lets escape is modelled as a `Fault` outcome.

Modules, one per file:

| file | module | models |
|---|---|---|
| wrappers.dfy | `Wrappers` | `Option`, `Outcome` with Java fault kinds |
| text.dfy | `Text` | `startsWith`, `toLowerCase`, `String.split`, `String.join`, `Long.parseLong`/`toString` |
| networks.dfy | `Networks` | `Network`, `NetworkStatus`, `NetworkState`, `NetworkPeer`, routes, envelopes and their routing slip |
| reltypes.dfy | `RelTypes` | RelType.java |
| hashsets.dfy | `HashSets` | `HashSet.add` on a duplicate-free sequence |
| inmemorypeerdb.dfy | `InMemoryPeerDB` | InMemoryPeerDB.java |
| peerdb.dfy | `PeerDB` | PeerDB.java |
| p2prelationship.dfy | `P2PRelationship` | P2PRelationship.java |
| peerrelationshipsdb.dfy | `PeerRelationshipsDB` | PeerRelationshipsDB.java, over nodes plus a `(from, type, to) -> relationship` map |
| networkmanagerservice.dfy | `NetworkManagerService` | the registry, driver tables, `setExternalRoute`, `sendToMessageHold` |
| networkdiscovery.dfy | `NetworkDiscovery` | NetworkDiscovery.java |
| delayedsend.dfy | `DelayedSend` | DelayedSend.java |

Modelling choices a reader should know:

- **Networks.** `Network` has the eight constants the source switches over: HTTP, Tor, I2P, Bluetooth, WiFi, Satellite, FSRadio and LiFi. The enum itself lives in a library that is not part of this model.
- **Peers.** A `NetworkPeer` is reduced to an optional id, network and address. The address stands for the DID's public-key address.
- **Peer sets.** A `HashSet<NetworkPeer>` is a duplicate-free sequence, so that an index drawn at random is well defined. Peer equality is value equality.
- **Routing slip.** The slip is a stack whose top is the last element. `addExternalRoute` is taken to push a `SimpleExternalRoute`.
- **Number widths.** Integers are unbounded. The one `int` product that decides behaviour, `numPeersShare * 2` at InMemoryPeerDB.java:101, is wrapped to 32 bits explicitly. 64-bit overflow is not modelled (see Left out).
- **Which directory discovery uses.** `NetworkDiscovery` declares its directory as `PeerDB`. It calls methods that only `InMemoryPeerDB` has, so the model runs discovery over `InMemoryPeerDB`.
- **Message hold.** `sendToMessageHold` uses `createNewFile`, which fails when a record with that id exists, so the model inserts only if absent.
- **Median used downstream.** The statistics classifiers and `savePeerStatusTimes` use the corrected median, which does not reorder the window. The in-place sort is recorded under Findings.

## Model

| member | source | states |
|---|---|---|
| `Text.SplitJoin` | src/main/java/ra/networkmanager/P2PRelationship.java:58-63 | Splitting the comma-joined pieces (non-empty and comma-free) gives the pieces back, as `String.split` on a joined list must |
| `Text.Split` | src/main/java/ra/networkmanager/P2PRelationship.java:58-59 | `String.split` with trailing empty pieces dropped: a string without the separator is one piece, no piece contains the separator, and when the separator occurs the last piece is non-empty |
| `Text.ParseIntToString` | src/main/java/ra/networkmanager/P2PRelationship.java:60-62 | `parseLong` of the decimal rendering of any integer returns that integer |
| `Text.WrapInt32` | src/main/java/ra/networkmanager/InMemoryPeerDB.java:101 | Java `int` arithmetic: the result is in the 32-bit range and congruent to the exact value modulo 2^32; equal to it when it fits, 2^32 less just above the range and 2^32 more just below it |
| `Text.ParseInt32` | src/main/java/ra/networkmanager/NetworkDiscovery.java:38 | `Integer.parseInt` over ASCII digits: succeeds when the text parses as a decimal integer within the signed 32-bit range, with that value, and otherwise fails with NumberFormatException |
| `Networks.NetworkNameInjective` | src/main/java/ra/networkmanager/NetworkManagerService.java:298 | Distinct networks have distinct names, so the name-keyed registry holds at most one state per network |
| `Networks.Envelope.AddRoute` | src/main/java/ra/networkmanager/NetworkDiscovery.java:94-104 | Adding a route puts it on top of the slip (it becomes the next route) and keeps every earlier route beneath it |
| `RelTypes.ToNetwork` | src/main/java/ra/networkmanager/RelType.java:22-33 | A name maps to a network only when it is that network's own name, and never to HTTP |
| `RelTypes.FromNetwork` | src/main/java/ra/networkmanager/RelType.java:35-49 | Total: a listed network name maps to the same-named type, except "WiFi" which maps to WiFiDirect; never Seed, Banned, Reliable or LowLatency |
| `RelTypes.ToNetworkInvertsName` | src/main/java/ra/networkmanager/RelType.java:22-33 | `toNetwork` recognises every transport's name except "HTTP" |
| `RelTypes.ToNetworkRefusesNonTransports` | src/main/java/ra/networkmanager/RelType.java:22-33 | Seed, Banned, Reliable, LowLatency, NFC, Card, IMS, Unknown and "HTTP" all give null |
| `RelTypes.RelTypeRoundTrip` | src/main/java/ra/networkmanager/RelType.java:24-45 | `toNetwork(fromNetwork(n).name())` is n for Tor, I2P, Bluetooth, Satellite, FSRadio and LiFi; null for WiFi (WiFiDirect is not accepted back) and HTTP (Unknown) |
| `HashSets.Add` | src/main/java/ra/networkmanager/InMemoryPeerDB.java:47-49 | Adding to a set makes the element a member, keeps every other member, adds no duplicate, and grows the set by at most one |
| `InMemoryPeerDB.SavePeer` | src/main/java/ra/networkmanager/InMemoryPeerDB.java:28-52 | Succeeds exactly for a peer with non-empty id, network and address, and otherwise changes nothing. A local save replaces only its network's local peer. Any other save files the peer by id, address and network; every other id and address keeps its entry, every other network keeps its set, and the network's set afterwards holds exactly its old members and the peer |
| `InMemoryPeerDB.SavePeerConsistent` | src/main/java/ra/networkmanager/InMemoryPeerDB.java:28-52 | Saving keeps every index filed under its own key, with savable, duplicate-free network sets |
| `InMemoryPeerDB.SavePeerIgnoresRelType` | src/main/java/ra/networkmanager/InMemoryPeerDB.java:28-52 | The relationship-type argument never affects the result |
| `InMemoryPeerDB.FindPeer` | src/main/java/ra/networkmanager/InMemoryPeerDB.java:55-62 | The id index wins; the address index is consulted only when the id misses; null exactly when neither matches |
| `InMemoryPeerDB.FindPeerAfterSave` | src/main/java/ra/networkmanager/InMemoryPeerDB.java:44-57 | After saving a discovered peer, looking it up by its id returns it |
| `InMemoryPeerDB.FindPeerByAddressAfterSave` | src/main/java/ra/networkmanager/InMemoryPeerDB.java:44-61 | After saving a discovered peer, a probe without id but with its address finds it |
| `InMemoryPeerDB.NumberPeersByNetwork` | src/main/java/ra/networkmanager/InMemoryPeerDB.java:65-68 | Zero exactly when the network has no (or an empty) set, otherwise the set's size |
| `InMemoryPeerDB.NumberPeersByNetworkFrom` | src/main/java/ra/networkmanager/InMemoryPeerDB.java:71-73 | The overload with a starting id always answers 0 |
| `InMemoryPeerDB.NumberSeedPeersByNetwork` | src/main/java/ra/networkmanager/InMemoryPeerDB.java:76-79 | Zero exactly when the network has no seeds, otherwise the seed set's size |
| `InMemoryPeerDB.SaveCountsPeer` | src/main/java/ra/networkmanager/InMemoryPeerDB.java:44-50 | Saving a discovered peer raises its network's count by at most one (to at least one) and leaves other networks' counts alone |
| `InMemoryPeerDB.GetRandomPeerByNetwork` | src/main/java/ra/networkmanager/InMemoryPeerDB.java:93-96 | Corrected draw: null exactly when the network has no peers, otherwise a member of that network's own set |
| `InMemoryPeerDB.GetRandomSeedByNetwork` | src/main/java/ra/networkmanager/InMemoryPeerDB.java:87-90 | Corrected draw: null exactly when the network has no seeds, otherwise one of its seeds |
| `InMemoryPeerDB.GetRandomPeerByNetworkAsWritten` | src/main/java/ra/networkmanager/InMemoryPeerDB.java:93-96 | The draw as written always throws; whenever the index lands inside the values array it is a ClassCastException |
| `InMemoryPeerDB.GetRandomSeedByNetworkAsWritten` | src/main/java/ra/networkmanager/InMemoryPeerDB.java:87-90 | The seed draw as written always throws, and throws NullPointerException on a directory whose seed index was never written |
| `InMemoryPeerDB.GetRandomPeersToShareByNetwork` | src/main/java/ra/networkmanager/InMemoryPeerDB.java:99-112 | Over the corrected draw, with the draw limit `k * 2` wrapped to 32 bits: peers of that network with pairwise distinct ids, no more than the draws made. For 0 < k < 2^30, at most k peers after at most 2k draws. For k from 2^30 up, and for -2^30 <= k <= 0 or k = -2^31, no draw and no peer. For k below -2^30, at most 2k + 2^32 draws. None when the network is empty, and at least one whenever a draw is made and the network has a peer |
| `InMemoryPeerDB.FindPeersByService` | src/main/java/ra/networkmanager/InMemoryPeerDB.java:115-117 | Null while the service index is unwritten, which no operation ever changes |
| `InMemoryPeerDB.GetLocalPeerByNetwork` | src/main/java/ra/networkmanager/InMemoryPeerDB.java:81-84 | Null exactly when no local peer was saved for the network; in a consistent directory the local peer is savable and on that network |
| `InMemoryPeerDB.SavesNeverStoreSeeds` | src/main/java/ra/networkmanager/InMemoryPeerDB.java:28-52 | After any sequence of saves from a fresh directory, the seed and service indices are still empty and every network's seed count is 0 |
| `InMemoryPeerDB.EmptyIsConsistent` | src/main/java/ra/networkmanager/InMemoryPeerDB.java:17-23 | A fresh directory is consistent and has its never-written indices empty |
| `PeerDB.SavePeer` | src/main/java/ra/networkmanager/PeerDB.java:30-47 | Succeeds exactly for a peer with non-empty id and a network, changing nothing otherwise; files it by id, by network and, only when it has one, by address. Every other id, address and network keeps its entry, the network's set afterwards holds exactly its old members and the peer, and the service index, location and name are unchanged |
| `PeerDB.SavePeerConsistent` | src/main/java/ra/networkmanager/PeerDB.java:30-47 | Saving keeps the indices filed under their own keys |
| `PeerDB.ResaveOverwritesId` | src/main/java/ra/networkmanager/PeerDB.java:40 | Re-saving an id overwrites the id index with the later peer |
| `PeerDB.NumberPeersByNetwork` | src/main/java/ra/networkmanager/PeerDB.java:49-52 | Zero for a network without a set, otherwise the set's size |
| `PeerDB.RandomPeer` | src/main/java/ra/networkmanager/PeerDB.java:54-59 | Corrected draw: null exactly when there is no starting peer, it has no network, or that network has no set; otherwise a member of the set, on the same network |
| `PeerDB.RandomPeerAsWritten` | src/main/java/ra/networkmanager/PeerDB.java:54-59 | As written it never returns a peer: null on the guarded cases, ClassCastException from the array cast otherwise |
| `PeerDB.FindPeersByService` | src/main/java/ra/networkmanager/PeerDB.java:61-65 | Always the empty list |
| `PeerDB.Init` | src/main/java/ra/networkmanager/PeerDB.java:83-97 | Fails without a location or a name, never sets the initialised flag, and cannot succeed while the flag is false |
| `PeerDB.InitNeverSucceeds` | src/main/java/ra/networkmanager/PeerDB.java:83-97 | From a fresh store, whatever peers were saved and whatever location and name are set, `init` fails |
| `P2PRelationship.NetworkToRelationship` | src/main/java/ra/networkmanager/P2PRelationship.java:115-127 | A type exactly for the eight network names, never IMS: "Tor" gives TOR, "WiFi" gives WiFiDirect, and every other accepted name gives the type of that very name |
| `P2PRelationship.NetworkToRelationshipInjective` | src/main/java/ra/networkmanager/P2PRelationship.java:115-127 | Distinct networks get distinct relationship types |
| `P2PRelationship.Evict` | src/main/java/ra/networkmanager/P2PRelationship.java:52-54 | Removing from the front until at most max remain leaves the last min(size, max) samples in order |
| `P2PRelationship.AddAckTimeTracked` | src/main/java/ra/networkmanager/P2PRelationship.java:49-56 | A sample <= 0 changes nothing. An accepted sample adds one to the ack count, and the window becomes the newest samples up to the capacity, ending with the new sample |
| `P2PRelationship.WindowKeepsLatest` | src/main/java/ra/networkmanager/P2PRelationship.java:49-56 | After any run of samples, the window is the last `max` accepted samples in arrival order |
| `P2PRelationship.TotalCountsAccepted` | src/main/java/ra/networkmanager/P2PRelationship.java:49-56 | The ack count rises by exactly the number of accepted samples, whatever was evicted |
| `P2PRelationship.JavaDiv` | src/main/java/ra/networkmanager/P2PRelationship.java:80 | Java's long division: the quotient truncated toward zero |
| `P2PRelationship.AvgAckLatency` | src/main/java/ra/networkmanager/P2PRelationship.java:75-81 | The average is the window's sum divided by its size and truncated toward zero: the largest value whose multiple does not exceed a non-negative sum, the smallest whose multiple is not below a negative one |
| `P2PRelationship.AvgBelow` | src/main/java/ra/networkmanager/P2PRelationship.java:75-81 | When every sample is below a bound, the average (sum over size, truncated) is below it too |
| `P2PRelationship.Sort` | src/main/java/ra/networkmanager/P2PRelationship.java:84 | The ascending sort of the window is sorted and a permutation of it |
| `P2PRelationship.SortSorted` | src/main/java/ra/networkmanager/P2PRelationship.java:84 | Sorting an already sorted window changes nothing |
| `P2PRelationship.MedAckLatencyAsWritten` | src/main/java/ra/networkmanager/P2PRelationship.java:83-86 | The median query leaves the window sorted (a permutation of the old one, same size) with the counters unchanged, and returns the element at index size/2 of that sorted window |
| `P2PRelationship.MedianQueryReordersEviction` | src/main/java/ra/networkmanager/P2PRelationship.java:49-86 | For any full window: adding a sample evicts the oldest sample, but after a median query the same add evicts the smallest one (the window kept is the sorted window without its head, then the sample) |
| `P2PRelationship.MedianQueryEvictionExample` | src/main/java/ra/networkmanager/P2PRelationship.java:49-86 | Window [5, 1] of capacity 2 and sample 7: without a query the window becomes [1, 7], after a median query [5, 7] |
| `P2PRelationship.MedianQueryKeepsStatistics` | src/main/java/ra/networkmanager/P2PRelationship.java:75-86 | A median query does not change the average or the median itself |
| `P2PRelationship.MedAckLatency` | src/main/java/ra/networkmanager/P2PRelationship.java:83-86 | The corrected median is a sample of the window and the element at index size/2 of every sorted permutation of it; fewer than size/2 + 1 samples lie below it and more than size/2 are at most it |
| `P2PRelationship.SortedPermutationUnique` | src/main/java/ra/networkmanager/P2PRelationship.java:84 | Two sorted sequences with the same elements are equal, so the sorted window (and index size/2 of it) does not depend on how it was sorted |
| `P2PRelationship.MedianQueriesAgree` | src/main/java/ra/networkmanager/P2PRelationship.java:83-86 | The as-written query returns the corrected median and leaves exactly the sorted window behind |
| `P2PRelationship.BelowMaxLatency` | src/main/java/ra/networkmanager/P2PRelationship.java:111-113 | True only when some sample is below the bound (the average or the median would be at least it otherwise), and true whenever every sample is |
| `P2PRelationship.IsReliable` | src/main/java/ra/networkmanager/P2PRelationship.java:95-99 | Reliable exactly when there are more than 100 acks and both statistics are below 8000 ms |
| `P2PRelationship.IsSuperReliable` | src/main/java/ra/networkmanager/P2PRelationship.java:101-105 | Super-reliable exactly when there are more than 1000 acks and both statistics are below 4000 ms |
| `P2PRelationship.IsRealTime` | src/main/java/ra/networkmanager/P2PRelationship.java:107-109 | Real-time only when some sample is below 1000 ms |
| `P2PRelationship.SuperReliableIsReliable` | src/main/java/ra/networkmanager/P2PRelationship.java:95-105 | Super-reliable implies reliable |
| `P2PRelationship.RealTimeIsBelowOneSecond` | src/main/java/ra/networkmanager/P2PRelationship.java:107-113 | Real-time equals `belowMaxLatency(1000)` and ignores the ack count |
| `P2PRelationship.FastSamplesAreReliable` | src/main/java/ra/networkmanager/P2PRelationship.java:95-113 | With more than 100 acks and every sample under 8000 ms the relationship is reliable; with more than 1000 acks and every sample under 4000 ms it is super-reliable |
| `P2PRelationship.GetAckTimesTracked` | src/main/java/ra/networkmanager/P2PRelationship.java:65-73 | Flattening fails (the source indexes below zero) exactly when the window is empty |
| `P2PRelationship.SetAckTimesTracked` | src/main/java/ra/networkmanager/P2PRelationship.java:58-63 | Parsing appends to the window, keeping the old samples first and the counters unchanged |
| `P2PRelationship.ParseAllRender` | src/main/java/ra/networkmanager/P2PRelationship.java:58-73 | Parsing the rendered samples gives them back |
| `P2PRelationship.FlattenParseRoundTrip` | src/main/java/ra/networkmanager/P2PRelationship.java:58-73 | For a non-empty window, parsing its flattening appends exactly that window, so into a fresh relationship it reproduces it |
| `PeerRelationshipsDB.SavePeer` | src/main/java/ra/networkmanager/PeerRelationshipsDB.java:151-167 | Creates the node only when it is absent and auto-creation is asked for; never a duplicate id; edges untouched |
| `PeerRelationshipsDB.IsRelatedByNetwork` | src/main/java/ra/networkmanager/PeerRelationshipsDB.java:179-195 | Throws NullPointerException exactly for a network name without a relationship type; otherwise, in a well-formed graph, true exactly when the edge of that type exists |
| `PeerRelationshipsDB.RelateByNetwork` | src/main/java/ra/networkmanager/PeerRelationshipsDB.java:197-232 | A missing or equal pair of ids gives null and no change; otherwise the edge of the network's type exists afterwards, an existing one is reused, and no other edge changes |
| `PeerRelationshipsDB.RelatePreservesGraphOk` | src/main/java/ra/networkmanager/PeerRelationshipsDB.java:197-232 | Relating keeps node ids unique, edges between known nodes, no self-loops and no IMS edges |
| `PeerRelationshipsDB.RelateIdempotent` | src/main/java/ra/networkmanager/PeerRelationshipsDB.java:211-226 | Relating twice is relating once: at most one edge per (from, type, to) |
| `PeerRelationshipsDB.RelatedAfterRelate` | src/main/java/ra/networkmanager/PeerRelationshipsDB.java:179-232 | After relating two distinct known peers the relatedness query answers true |
| `PeerRelationshipsDB.GetNetworkRelationship` | src/main/java/ra/networkmanager/PeerRelationshipsDB.java:234-255 | The stored relationship exactly when the network is known and the edge exists |
| `PeerRelationshipsDB.NumberPeersByNetwork` | src/main/java/ra/networkmanager/PeerRelationshipsDB.java:257-277 | -1 exactly for an unknown network name, otherwise the number of the peer's outgoing edges of that type |
| `PeerRelationshipsDB.RemoveNetworkRelationship` | src/main/java/ra/networkmanager/PeerRelationshipsDB.java:282-295 | Fails and changes nothing for an unknown network; otherwise deletes just that edge, after which the relatedness query answers false |
| `PeerRelationshipsDB.RemovePreservesGraphOk` | src/main/java/ra/networkmanager/PeerRelationshipsDB.java:282-295 | Removing keeps the graph well formed |
| `PeerRelationshipsDB.RemoveAfterRelate` | src/main/java/ra/networkmanager/PeerRelationshipsDB.java:282-295 | Relate then remove leaves the relatedness query answering false |
| `PeerRelationshipsDB.SavePeerStatusTimes` | src/main/java/ra/networkmanager/PeerRelationshipsDB.java:309-344 | Never reports "added as reliable". An existing edge gets the ack time as its last ack and the latency fed into its 50-sample window. A missing edge is created, exactly as relating the pair would, when the peer's outgoing count of that type is at most 1000 |
| `PeerRelationshipsDB.NewEdgeHasNoSample` | src/main/java/ra/networkmanager/PeerRelationshipsDB.java:337-339 | An edge created by a status save starts with no sample and no acks |
| `PeerRelationshipsDB.SaveStatusPreservesGraphOk` | src/main/java/ra/networkmanager/PeerRelationshipsDB.java:309-344 | Status saves keep the graph well formed |
| `PeerRelationshipsDB.FindPath` | src/main/java/ra/networkmanager/PeerRelationshipsDB.java:51-70 | A path query with a missing endpoint returns the empty list |
| `NetworkManagerService.UpdateNetworkState` | src/main/java/ra/networkmanager/NetworkManagerService.java:291-298 | A non-event report changes nothing; an event report replaces only its network's entry |
| `NetworkManagerService.UpdatePreservesRegistryOk` | src/main/java/ra/networkmanager/NetworkManagerService.java:298 | Every entry stays filed under its own network's name |
| `NetworkManagerService.LastReportWins` | src/main/java/ra/networkmanager/NetworkManagerService.java:298 | Two reports for one network leave only the later one |
| `NetworkManagerService.LocalNetworks` | src/main/java/ra/networkmanager/NetworkManagerService.java:157-164 | LOCAL_NETWORKS lists exactly the reported networks |
| `NetworkManagerService.ActiveNetworks` | src/main/java/ra/networkmanager/NetworkManagerService.java:165-174 | ACTIVE_NETWORKS lists exactly the reported networks whose status is CONNECTED, a subset of the local ones |
| `NetworkManagerService.GetNetworkStatus` | src/main/java/ra/networkmanager/NetworkManagerService.java:396-398 | Throws NullPointerException exactly for a network that never reported; otherwise CONNECTED exactly when the registry says it is connected |
| `NetworkManagerService.IsNetworkReady` | src/main/java/ra/networkmanager/NetworkManagerService.java:353-365 | Throws exactly for a network that never reported; otherwise true exactly when it is connected |
| `NetworkManagerService.ReadyIffActive` | src/main/java/ra/networkmanager/NetworkManagerService.java:353-365 | The readiness query answers true exactly for the networks listed as active |
| `NetworkManagerService.ReadyAfterReport` | src/main/java/ra/networkmanager/NetworkManagerService.java:291-365 | After a report the readiness query answers, without throwing, whether the report said CONNECTED |
| `NetworkManagerService.ServiceOfNetwork` | src/main/java/ra/networkmanager/NetworkManagerService.java:400-412 | Every driver service name begins with "ra." |
| `NetworkManagerService.NetworkOfService` | src/main/java/ra/networkmanager/NetworkManagerService.java:382-394 | A service maps to a network only when it is that network's driver |
| `NetworkManagerService.DriverTablesInverse` | src/main/java/ra/networkmanager/NetworkManagerService.java:382-412 | The two tables are inverse for all eight networks, and any other service name maps to null |
| `NetworkManagerService.PreferredNetwork` | src/main/java/ra/networkmanager/NetworkManagerService.java:436-449 | The preferred network, when there is one, is connected |
| `NetworkManagerService.SelectPeerNetwork` | src/main/java/ra/networkmanager/NetworkManagerService.java:450-468 | The peer's own network when connected; for a peer without network but with an address, the directory match's network when connected; otherwise none |
| `NetworkManagerService.SetExternalRoute` | src/main/java/ra/networkmanager/NetworkManagerService.java:434-493 | The codes are characterised as follows. NEXT_ROUTE_MUST_BE_AN_EXTERNAL_ROUTE exactly when the next route is not external. UNABLE_TO_SELECT_PEER_NETWORK exactly when no peer network is selected. LOCAL_PEER_FOR_NETWORK_NOT_AVAILABLE exactly when the chosen network has no local peer. SERVICE_NOT_FOUND_FOR_NETWORK never. Success iff READY, and a failure never edits. On READY the pushed or rewritten route is a SEND on the network's driver from the local peer to the peer |
| `NetworkManagerService.PreferredNetworkIgnored` | src/main/java/ra/networkmanager/NetworkManagerService.java:444-492 | Whatever service the external next route names, the decision is the same |
| `NetworkManagerService.RouteReadyWhenConnected` | src/main/java/ra/networkmanager/NetworkManagerService.java:450-490 | A peer on a disconnected network is refused. A peer on a connected network with a local peer is routed, and the envelope then carries the SEND route to it |
| `NetworkManagerService.SendToMessageHold` | src/main/java/ra/networkmanager/NetworkManagerService.java:414-428 | Succeeds exactly when no record with the id exists, and then stores it; an existing record is never overwritten |
| `NetworkManagerService.HoldKeepsFirst` | src/main/java/ra/networkmanager/NetworkManagerService.java:414-428 | Holding two envelopes with one id keeps the first and refuses the second |
| `NetworkDiscovery.ReadSetting` | src/main/java/ra/networkmanager/NetworkDiscovery.java:35-39 | The default when the property is absent, the parsed property otherwise |
| `NetworkDiscovery.ConfigFromProperties` | src/main/java/ra/networkmanager/NetworkDiscovery.java:31-65 | Construction succeeds exactly when every discovery property present parses as a 32-bit integer, and otherwise fails with NumberFormatException. Each setting is then its parsed property, or its default (3000, 1500, 1500, 1000, 20, 8) when absent, and fits 32 bits |
| `NetworkDiscovery.DefaultConfig` | src/main/java/ra/networkmanager/NetworkDiscovery.java:35-64 | With no discovery property the configuration is exactly the defaults |
| `NetworkDiscovery.ConfiguredShareSize` | src/main/java/ra/networkmanager/NetworkDiscovery.java:60-64 | A share size written as a 32-bit number is read back as that number with the other settings at their defaults; a larger one fails construction |
| `NetworkDiscovery.BuildRequest` | src/main/java/ra/networkmanager/NetworkDiscovery.java:72-104 | The request comes from the local peer and carries the shared peers only when the sample is non-empty. They are then the network's peers with distinct ids, taken only when the wrapped doubled share size allows a draw, and at most numPeersShare of them (at most 2 * numPeersShare + 2^32 for a share size below -2^30). It targets a seed exactly when the network has no peer, and otherwise one of its peers. The reply route swaps origination and destination of the PEER_STATUS route, and the local SEND is on top |
| `NetworkDiscovery.Execute` | src/main/java/ra/networkmanager/NetworkDiscovery.java:67-110 | Control flow as written, over the corrected directory draws: requests go, in order, to the connected networks before the first one with neither peers nor seeds; true exactly when there is none such; every request well formed |
| `NetworkDiscovery.ExecuteContinuing` | src/main/java/ra/networkmanager/NetworkDiscovery.java:67-110 | Corrected: requests for every connected network that has peers or seeds, and always true |
| `NetworkDiscovery.TargetsAreConnected` | src/main/java/ra/networkmanager/NetworkDiscovery.java:70-71 | Only connected networks are probed, and the as-written targets are a prefix of the corrected ones |
| `NetworkDiscovery.SweepsAgreeWithoutUnbootstrappable` | src/main/java/ra/networkmanager/NetworkDiscovery.java:67-110 | Without an unbootstrappable network both sweeps probe the same networks |
| `NetworkDiscovery.EarlyReturnSkipsLaterNetworks` | src/main/java/ra/networkmanager/NetworkDiscovery.java:83-87 | Tor connected and empty before I2P connected with a peer: the as-written control flow probes nothing, the corrected one probes I2P |
| `DelayedSend.CountEligible` | src/main/java/ra/networkmanager/DelayedSend.java:47-49 | Positive exactly when some state matches the service and is CONNECTED |
| `DelayedSend.SendCount` | src/main/java/ra/networkmanager/DelayedSend.java:47-58 | As written one send per matching connected state when the send path accepts; stopping after success, at most one |
| `DelayedSend.SweepAsWritten` | src/main/java/ra/networkmanager/DelayedSend.java:31-61 | The sweep as written aborts only on a readable record without a next route |
| `DelayedSend.SweepCorrected` | src/main/java/ra/networkmanager/DelayedSend.java:31-61 | The corrected sweep aborts only on a record without a next route and sends each deleted message exactly once |
| `DelayedSend.UnreadableSkipped` | src/main/java/ra/networkmanager/DelayedSend.java:36-41 | An unreadable record is skipped and the sweep goes on as if it were absent |
| `DelayedSend.DeletedOnlyAfterSend` | src/main/java/ra/networkmanager/DelayedSend.java:47-57 | Every deleted record held a routed message that was accepted on an eligible state |
| `DelayedSend.SentOnlyDeliverable` | src/main/java/ra/networkmanager/DelayedSend.java:45-50 | Every message sent came from a record with an eligible state whose send was accepted |
| `DelayedSend.UndeliverableStaysHeld` | src/main/java/ra/networkmanager/DelayedSend.java:47-57 | A record with no matching connected state (or a refused send) stays held |
| `DelayedSend.DeliverableReached` | src/main/java/ra/networkmanager/DelayedSend.java:36-58 | A deliverable record is sent and deleted, provided every record before it has a next route so that the sweep reaches it |
| `DelayedSend.NoNetworkPrefixesDriver` | src/main/java/ra/networkmanager/DelayedSend.java:48 | No lower-cased network name is a prefix of any driver service name |
| `DelayedSend.DriverAddressedNeverResent` | src/main/java/ra/networkmanager/DelayedSend.java:45-58 | When every held message is addressed to a driver, the sweep as written sends and deletes nothing |
| `DelayedSend.ConnectedDriverMessageDelivered` | src/main/java/ra/networkmanager/DelayedSend.java:45-58 | Corrected: a message addressed to the driver of a connected network, whose send is accepted, is sent and its record deleted |

## Left out

- Service lifecycle (`start`, `restart`, `shutdown`, `pause`, `gracefulShutdown`), TaskRunner scheduling and periodicity: concurrency and timing, not decision logic.
- The message-handling switch of `NetworkManagerService.handleDocument`, except the LOCAL_NETWORKS, ACTIVE_NETWORKS and state-update cases. The rest is envelope plumbing into `producer.send`, `deadLetter` and the lifecycle.
- The PUBLISH fan-out (NetworkManagerService.java:127-149). Note that it routes the original envelope `e` rather than the per-peer copy.
- The per-status logging and event forwarding after the registry update in `updateNetworkState`: logging and messaging only.
- `firstAvailableNonInternetNetwork`: nothing in the modelled core calls it.
- File I/O: the message hold is a map from id to envelope, and DelayedSend's hold is a listed sequence of records. An `IOException` from `createNewFile` and a failing `msg.delete()` are not modelled. The send path is a parameter `accepts`, because it enters code that is not part of this model.
- Envelope JSON serialisation and the "peers" payload's map form: the request carries the peers themselves.
- Logging everywhere.
- 64-bit overflow: `long` arithmetic (sums, `timeAcknowledged - timeSent`, the ack counter) and the comparator's `(int)(t1 - t2)` truncation are modelled over unbounded integers.
- HashMap iteration order: LOCAL_NETWORKS and ACTIVE_NETWORKS are modelled as sets, and the network-state snapshots of the two tasks are taken in any given order.
- Neo4j path finding (`findLeastHopsPath`, `findLowestLatencyPath`, `findLowestLatencyPathFiltered`) beyond the missing-endpoint case. The search is foreign, and the graph never holds the IMS edges it follows.
- Cypher string building, transactions, indexes, `init`/`teardown` and the shutdown hook of PeerRelationshipsDB: database plumbing.
- `InMemoryPeerDB.init`/`teardown` and the two `randomPeerWith...` methods, which only return constants; PeerDB's getters, setters and `teardown`.
- GraphUtil.java, Stats.java, PeerManager.java, NetworkOverlayDiscovery.java and the stub src/main/java/ra/network/manager/NetworkManagerService.java: conversion wrappers, unread configuration, initialisation glue and code that does nothing; they are not part of this model.
- `P2PRelationship` map and JSON conversion (`toMap`, `fromMap`, `toJSON`, `fromJSON`).
- PeerRelationshipsDB.FindPath: the path returned when both endpoints exist is a parameter (the foreign search's answer); only the missing-endpoint rule is stated.
- Text.ToLower: ASCII letters only, which is every character of the network names.
- Text.ParseInt: accepts an optional sign and the ASCII digits '0' to '9' only. Java reads digits with `Character.digit`, which also accepts the other Unicode decimal digits (`parseLong("\u0661\u0662")` is 12), and the model refuses those. The 64-bit range check of `parseLong` is not modelled; the 32-bit check of `Integer.parseInt` is, by `Text.ParseInt32`.
- Text.ParseInt32: ASCII digits only, as for `Text.ParseInt`; a property written with other Unicode decimal digits fails here but parses in Java.
- P2PRelationship.IsReliable, P2PRelationship.IsSuperReliable, P2PRelationship.BelowMaxLatency and PeerRelationshipsDB.SavePeerStatusTimes use the corrected, non-mutating median. The side effect of the as-written median is stated separately, by `MedAckLatencyAsWritten` and `MedianQueryReordersEviction`.
- DelayedSend.SendCount: with distinct network names at most one state matches a service, so the repeated send needs two entries for one network. A snapshot of the registry never has two; the count is stated for any list of states.
- NetworkDiscovery.Execute: runs over the corrected InMemoryPeerDB draws. As written, both draws throw whenever they run. The share sample at NetworkDiscovery.java:73 throws whenever it draws at all, which is when `numPeersShare * 2`, wrapped to 32 bits, is positive: 0 < numPeersShare < 2^30, or numPeersShare < -2^30 other than -2^31 (`InMemoryPeerDB.SampleDraws`). It then throws NullPointerException at InMemoryPeerDB.java:94 for a network without a set, otherwise ClassCastException or an out-of-bounds index at line 95. The target draw at NetworkDiscovery.java:91 throws in the same way for every network with peers, whatever numPeersShare is. The seed index is never written, so as written `execute` never sends a request: it throws at the first connected network with peers (or at any connected network when the share sample draws), or returns false at the first connected network without peers.
- NetworkDiscovery.BuildRequest: is called only after the bootstrap check, whereas the source takes the share sample (NetworkDiscovery.java:73) before it. With the corrected draws the sample has no effect outside the request, so the order changes nothing.
- P2PRelationship.MedAckLatency: requires a non-empty window, and so does `MedAckLatencyAsWritten`. On an empty window the source throws IndexOutOfBoundsException at P2PRelationship.java:85 (`get(size() / 2)` with size 0); neither member models that error path.
- P2PRelationship.IsReliable: requires a non-empty window once the ack count passes 100; the source would throw ArithmeticException (division by zero) at P2PRelationship.java:80 on an empty one.
- P2PRelationship.IsSuperReliable: requires a non-empty window once the ack count passes 1000, for the same reason.
- P2PRelationship.BelowMaxLatency: requires a non-empty window, where the source would throw ArithmeticException at P2PRelationship.java:80; so do `IsRealTime` and `AvgAckLatency`.

## Findings

| source | as written | input that shows it | evidently intended | confidence | as-written member | corrected member |
|---|---|---|---|---|---|---|
| src/main/java/ra/networkmanager/InMemoryPeerDB.java:87-96 | The random index is drawn below the size of the network's own set but indexes `values().toArray()` of the whole map, whose elements are sets | One discovered Tor peer: index 0 is the Tor set itself, so the cast throws ClassCastException; a network without a set throws NullPointerException | Index the network's own set | high (not executed) | `InMemoryPeerDB.GetRandomPeerByNetworkAsWritten`, `InMemoryPeerDB.GetRandomSeedByNetworkAsWritten` | `InMemoryPeerDB.GetRandomPeerByNetwork`, `InMemoryPeerDB.GetRandomSeedByNetwork` |
| src/main/java/ra/networkmanager/PeerDB.java:54-59 | `toArray()` returns an `Object[]`, which is cast to `NetworkPeer[]` | Any starting peer whose network has a set: the cast throws ClassCastException | Return the element at the random index of the set | high (not executed) | `PeerDB.RandomPeerAsWritten` | `PeerDB.RandomPeer` |
| src/main/java/ra/networkmanager/P2PRelationship.java:83-86 | The median query sorts the window in place | Window [5, 1] with capacity 2: adding 7 keeps [1, 7]; after a median query it keeps [5, 7]. `savePeerStatusTimes` queries the median (PeerRelationshipsDB.java:321) before flattening the window (line 322), so the stored window is the sorted one too | Report the median without reordering the window | high (not executed) | `P2PRelationship.MedAckLatencyAsWritten`, `P2PRelationship.MedianQueryReordersEviction`, `P2PRelationship.MedianQueryEvictionExample` | `P2PRelationship.MedAckLatency` |
| src/main/java/ra/networkmanager/DelayedSend.java:48 | Matches a held message to a network when the lower-cased network name is a prefix of the next route's service | A message whose next service is "ra.tor.TORClientService" with Tor CONNECTED: "tor" is not a prefix, so it is never resent | Match the service to the network whose driver it is, and stop after the first successful send | high (not executed) | `DelayedSend.SweepAsWritten`, `DelayedSend.DriverAddressedNeverResent` | `DelayedSend.SweepCorrected`, `DelayedSend.ConnectedDriverMessageDelivered` |
| src/main/java/ra/networkmanager/NetworkDiscovery.java:83-87 | `return false` at a connected network with neither peers nor seeds ends the whole sweep | numPeersShare = "0" (so the share sample draws nothing), Tor connected with nothing known, then I2P connected with one peer: I2P gets no request. With the draws of the first row corrected, any numPeersShare shows it | Skip that network and continue with the rest | medium (not executed) | `NetworkDiscovery.Execute`, `NetworkDiscovery.EarlyReturnSkipsLaterNetworks` | `NetworkDiscovery.ExecuteContinuing` |

=== FILE: delayedsend.dfy ===
/**
 * The retry task for held messages (DelayedSend.java): one sweep over the
 * message hold against a snapshot of the network states, deciding which held
 * messages are handed to the send path again and which records are deleted.
 */
module DelayedSend {
  import opened Wrappers
  import opened Text
  import opened Networks
  import NetworkManagerService

  /** A record of the hold: unreadable, or the envelope it stores. */
  datatype HoldRecord = Unreadable | Readable(envelope: Envelope)

  /** One file of the hold, in the order the directory lists them. */
  datatype HeldFile = HeldFile(name: string, record: HoldRecord)

  /**
   * The effect of a sweep: the envelopes handed successfully to the send path
   * (once per successful send), the names of the records deleted, and whether
   * the sweep died on a record without a next route.
   */
  datatype SweepResult = SweepResult(sent: seq<Envelope>, deleted: seq<string>, aborted: bool)

  /**
   * How a held message's next service is matched against a network: as
   * written, the lower-cased network name must be a prefix of the service
   * name; as intended, the service must be that network's driver.
   */
  datatype MatchRule = ByPrefix | ByDriver

  predicate Matches(rule: MatchRule, service: string, n: Network) {
    match rule
    case ByPrefix => StartsWith(service, ToLower(NetworkName(n)))
    case ByDriver => NetworkManagerService.NetworkOfService(service) == Some(n)
  }

  /** A state the message may be sent on: it matches the service and is CONNECTED. */
  predicate Eligible(rule: MatchRule, service: string, ns: NetworkState) {
    Matches(rule, service, ns.network) && ns.status == Connected
  }

  function CountEligible(rule: MatchRule, service: string, states: seq<NetworkState>): (count: nat)
    ensures count <= |states|
    ensures count > 0 <==> exists i :: 0 <= i < |states| && Eligible(rule, service, states[i])
  {
    if states == [] then 0
    else
      assert forall i :: 1 <= i < |states| ==> states[i] == states[1..][i - 1];
      (if Eligible(rule, service, states[0]) then 1 else 0) + CountEligible(rule, service, states[1..])
  }

  /**
   * The inner loop for one message: the number of successful sends.  Every
   * eligible state triggers a send; `accepts` is the send path's verdict.  As
   * written the loop keeps going after a success; with `stopAfterSend` it
   * stops at the first one.
   */
  function SendCount(env: Envelope, service: string, states: seq<NetworkState>, rule: MatchRule,
                     stopAfterSend: bool, accepts: Envelope -> bool): (count: nat)
    ensures !stopAfterSend ==> count == (if accepts(env) then CountEligible(rule, service, states) else 0)
    ensures stopAfterSend ==> count == (if accepts(env) && CountEligible(rule, service, states) > 0 then 1 else 0)
  {
    if states == [] then 0
    else if Eligible(rule, service, states[0]) && accepts(env) then
      if stopAfterSend then 1 else 1 + SendCount(env, service, states[1..], rule, stopAfterSend, accepts)
    else SendCount(env, service, states[1..], rule, stopAfterSend, accepts)
  }

  function Repeat(env: Envelope, k: nat): (s: seq<Envelope>)
    ensures |s| == k && forall i :: 0 <= i < k ==> s[i] == env
  {
    seq(k, _ => env)
  }

  /**
   * The sweep over the hold: an unreadable record is skipped; a record whose
   * envelope has no next route ends the sweep (the source dereferences the
   * missing route); otherwise the message is sent once per successful send and
   * its record is deleted when at least one send succeeded.
   */
  function SweepFiles(files: seq<HeldFile>, states: seq<NetworkState>, rule: MatchRule,
                      stopAfterSend: bool, accepts: Envelope -> bool): (r: SweepResult)
    ensures |r.deleted| <= |files|
  {
    if files == [] then SweepResult([], [], false)
    else
      match files[0].record
      case Unreadable => SweepFiles(files[1..], states, rule, stopAfterSend, accepts)
      case Readable(env) =>
        match env.NextRoute()
        case None => SweepResult([], [], true)
        case Some(route) =>
          var k := SendCount(env, route.service, states, rule, stopAfterSend, accepts);
          var rest := SweepFiles(files[1..], states, rule, stopAfterSend, accepts);
          SweepResult(Repeat(env, k) + rest.sent, (if k > 0 then [files[0].name] else []) + rest.deleted, rest.aborted)
  }

  /** A record the sweep can deliver: readable, routed, accepted, and with an eligible state. */
  predicate Deliverable(f: HeldFile, states: seq<NetworkState>, rule: MatchRule, accepts: Envelope -> bool) {
    && f.record.Readable?
    && f.record.envelope.NextRoute().Some?
    && accepts(f.record.envelope)
    && CountEligible(rule, f.record.envelope.NextRoute().value.service, states) > 0
  }

  predicate Routed(f: HeldFile) {
    f.record.Readable? ==> f.record.envelope.NextRoute().Some?
  }

  /** execute as written: prefix matching, and every eligible state is tried. */
  function SweepAsWritten(files: seq<HeldFile>, states: seq<NetworkState>, accepts: Envelope -> bool): (r: SweepResult)
    ensures (forall j :: 0 <= j < |files| ==> Routed(files[j])) ==> !r.aborted
  {
    RoutedNeverAborts(files, states, ByPrefix, false, accepts);
    SweepFiles(files, states, ByPrefix, false, accepts)
  }

  /** execute as intended: driver matching, and a message is sent at most once per sweep. */
  function SweepCorrected(files: seq<HeldFile>, states: seq<NetworkState>, accepts: Envelope -> bool): (r: SweepResult)
    ensures (forall j :: 0 <= j < |files| ==> Routed(files[j])) ==> !r.aborted
    ensures |r.sent| == |r.deleted|
  {
    RoutedNeverAborts(files, states, ByDriver, true, accepts);
    SentOncePerDeletion(files, states, accepts);
    SweepFiles(files, states, ByDriver, true, accepts)
  }

  lemma {:induction false} RoutedNeverAborts(files: seq<HeldFile>, states: seq<NetworkState>, rule: MatchRule,
                                             stopAfterSend: bool, accepts: Envelope -> bool)
    ensures (forall j :: 0 <= j < |files| ==> Routed(files[j])) ==> !SweepFiles(files, states, rule, stopAfterSend, accepts).aborted
  {
    if files != [] && forall j :: 0 <= j < |files| ==> Routed(files[j]) {
      assert Routed(files[0]);
      assert forall j :: 0 <= j < |files[1..]| ==> Routed(files[1..][j]) by {
        forall j | 0 <= j < |files[1..]| ensures Routed(files[1..][j]) {
          assert files[1..][j] == files[j + 1];
        }
      }
      RoutedNeverAborts(files[1..], states, rule, stopAfterSend, accepts);
    }
  }

  lemma {:induction false} SentOncePerDeletion(files: seq<HeldFile>, states: seq<NetworkState>, accepts: Envelope -> bool)
    ensures var r := SweepFiles(files, states, ByDriver, true, accepts); |r.sent| == |r.deleted|
  {
    if files != [] {
      SentOncePerDeletion(files[1..], states, accepts);
    }
  }

  /** Unreadable records change nothing: the sweep acts as if they were not there. */
  lemma {:induction false} UnreadableSkipped(files: seq<HeldFile>, name: string, states: seq<NetworkState>,
                                             rule: MatchRule, stopAfterSend: bool, accepts: Envelope -> bool)
    ensures SweepFiles([HeldFile(name, Unreadable)] + files, states, rule, stopAfterSend, accepts)
         == SweepFiles(files, states, rule, stopAfterSend, accepts)
  {
    assert ([HeldFile(name, Unreadable)] + files)[1..] == files;
  }

  /** A record is deleted only after its message was sent on an eligible state. */
  lemma {:induction false} DeletedOnlyAfterSend(files: seq<HeldFile>, states: seq<NetworkState>, rule: MatchRule,
                                                stopAfterSend: bool, accepts: Envelope -> bool)
    ensures forall name :: name in SweepFiles(files, states, rule, stopAfterSend, accepts).deleted ==>
              exists j :: 0 <= j < |files| && files[j].name == name && Deliverable(files[j], states, rule, accepts)
  {
    if files != [] {
      var rest := SweepFiles(files[1..], states, rule, stopAfterSend, accepts);
      DeletedOnlyAfterSend(files[1..], states, rule, stopAfterSend, accepts);
      var r := SweepFiles(files, states, rule, stopAfterSend, accepts);
      forall name | name in r.deleted
        ensures exists j :: 0 <= j < |files| && files[j].name == name && Deliverable(files[j], states, rule, accepts)
      {
        if name in rest.deleted {
          var j :| 0 <= j < |files[1..]| && files[1..][j].name == name && Deliverable(files[1..][j], states, rule, accepts);
          assert files[j + 1] == files[1..][j];
        } else {
          HeadDeletedIsDeliverable(files, states, rule, stopAfterSend, accepts, name);
        }
      }
    }
  }

  lemma HeadDeletedIsDeliverable(files: seq<HeldFile>, states: seq<NetworkState>, rule: MatchRule,
                                 stopAfterSend: bool, accepts: Envelope -> bool, name: string)
    requires files != []
    requires name in SweepFiles(files, states, rule, stopAfterSend, accepts).deleted
    requires name !in SweepFiles(files[1..], states, rule, stopAfterSend, accepts).deleted
    ensures files[0].name == name && Deliverable(files[0], states, rule, accepts)
  {
    var env := files[0].record.envelope;
    var k := SendCount(env, env.NextRoute().value.service, states, rule, stopAfterSend, accepts);
    assert k > 0;
  }

  /** Only a deliverable message is handed to the send path. */
  lemma {:induction false} SentOnlyDeliverable(files: seq<HeldFile>, states: seq<NetworkState>, rule: MatchRule,
                                               stopAfterSend: bool, accepts: Envelope -> bool)
    ensures forall e :: e in SweepFiles(files, states, rule, stopAfterSend, accepts).sent ==>
              exists j :: 0 <= j < |files| && files[j].record == Readable(e) && Deliverable(files[j], states, rule, accepts)
  {
    if files != [] {
      var rest := SweepFiles(files[1..], states, rule, stopAfterSend, accepts);
      SentOnlyDeliverable(files[1..], states, rule, stopAfterSend, accepts);
      var r := SweepFiles(files, states, rule, stopAfterSend, accepts);
      assert forall e :: e in r.sent ==> e in rest.sent || (files[0].record == Readable(e) && Deliverable(files[0], states, rule, accepts));
      forall e | e in rest.sent
        ensures exists j :: 0 <= j < |files| && files[j].record == Readable(e) && Deliverable(files[j], states, rule, accepts)
      {
        var j :| 0 <= j < |files[1..]| && files[1..][j].record == Readable(e) && Deliverable(files[1..][j], states, rule, accepts);
        assert files[j + 1] == files[1..][j];
      }
    }
  }

  /** With distinct record names, a record that cannot be delivered stays in the hold. */
  lemma UndeliverableStaysHeld(files: seq<HeldFile>, states: seq<NetworkState>, rule: MatchRule,
                               stopAfterSend: bool, accepts: Envelope -> bool, j: nat)
    requires j < |files|
    requires forall a, b :: 0 <= a < b < |files| ==> files[a].name != files[b].name
    requires !Deliverable(files[j], states, rule, accepts)
    ensures files[j].name !in SweepFiles(files, states, rule, stopAfterSend, accepts).deleted
  {
    DeletedOnlyAfterSend(files, states, rule, stopAfterSend, accepts);
    forall i | 0 <= i < |files| && files[i].name == files[j].name
      ensures !Deliverable(files[i], states, rule, accepts)
    {
      assert i == j;
    }
  }

  lemma FirstCharOfLowerName(n: Network)
    ensures |ToLower(NetworkName(n))| > 0 && ToLower(NetworkName(n))[0] != 'r'
  {
    var name := NetworkName(n);
    assert name[0] in {'H', 'T', 'I', 'B', 'W', 'S', 'F', 'L'};
    assert ToLower(name)[0] == LowerChar(name[0]);
  }

  /** No lower-cased network name is a prefix of any driver's service name, since every driver name begins with "ra.". */
  lemma NoNetworkPrefixesDriver(m: Network, n: Network)
    ensures !Matches(ByPrefix, NetworkManagerService.ServiceOfNetwork(m), n)
  {
    var service := NetworkManagerService.ServiceOfNetwork(m);
    var lower := ToLower(NetworkName(n));
    FirstCharOfLowerName(n);
    assert |lower| > |service| || service[..|lower|][0] != lower[0];
  }

  predicate AddressedToDriver(f: HeldFile) {
    f.record.Readable? ==>
      && f.record.envelope.NextRoute().Some?
      && NetworkManagerService.NetworkOfService(f.record.envelope.NextRoute().value.service).Some?
  }

  /**
   * The prefix match never fires on a message addressed to a transport driver:
   * when every held message is, the sweep as written sends and deletes nothing,
   * whatever the network states.
   */
  lemma {:induction false} DriverAddressedNeverResent(files: seq<HeldFile>, states: seq<NetworkState>, accepts: Envelope -> bool)
    requires forall j :: 0 <= j < |files| ==> AddressedToDriver(files[j])
    ensures SweepAsWritten(files, states, accepts) == SweepResult([], [], false)
  {
    if files != [] {
      assert AddressedToDriver(files[0]);
      assert forall j :: 0 <= j < |files[1..]| ==> AddressedToDriver(files[1..][j]) by {
        forall j | 0 <= j < |files[1..]| ensures AddressedToDriver(files[1..][j]) {
          assert files[1..][j] == files[j + 1];
        }
      }
      DriverAddressedNeverResent(files[1..], states, accepts);
      if files[0].record.Readable? {
        var service := files[0].record.envelope.NextRoute().value.service;
        var m := NetworkManagerService.NetworkOfService(service).value;
        assert forall i :: 0 <= i < |states| ==> !Eligible(ByPrefix, service, states[i]) by {
          forall i | 0 <= i < |states| ensures !Eligible(ByPrefix, service, states[i]) {
            NoNetworkPrefixesDriver(m, states[i].network);
          }
        }
      }
    }
  }

  /** A message held for a driver whose network is connected in the snapshot is resent by the corrected sweep and its record deleted. */
  lemma ConnectedDriverMessageDelivered(files: seq<HeldFile>, states: seq<NetworkState>,
                                        accepts: Envelope -> bool, j: nat, n: Network)
    requires j < |files|
    requires forall i :: 0 <= i < j ==> Routed(files[i])
    requires files[j].record.Readable? && accepts(files[j].record.envelope)
    requires files[j].record.envelope.NextRoute().Some?
    requires files[j].record.envelope.NextRoute().value.service == NetworkManagerService.ServiceOfNetwork(n)
    requires NetworkState(n, Connected) in states
    ensures files[j].name in SweepCorrected(files, states, accepts).deleted
    ensures files[j].record.envelope in SweepCorrected(files, states, accepts).sent
  {
    ConnectedDriverEligible(states, n);
    DeliverableReached(files, states, ByDriver, true, accepts, j);
  }

  /** A deliverable record that the sweep reaches (every record before it routed) is sent and deleted. */
  lemma {:induction false} DeliverableReached(files: seq<HeldFile>, states: seq<NetworkState>, rule: MatchRule,
                                              stopAfterSend: bool, accepts: Envelope -> bool, j: nat)
    requires j < |files|
    requires forall i :: 0 <= i < j ==> Routed(files[i])
    requires Deliverable(files[j], states, rule, accepts)
    ensures files[j].name in SweepFiles(files, states, rule, stopAfterSend, accepts).deleted
    ensures files[j].record.envelope in SweepFiles(files, states, rule, stopAfterSend, accepts).sent
  {
    if j > 0 {
      var tail := files[1..];
      assert Routed(files[0]);
      assert forall k :: 0 <= k < j - 1 ==> Routed(tail[k]) by {
        forall k | 0 <= k < j - 1 ensures Routed(tail[k]) {
          assert tail[k] == files[k + 1];
        }
      }
      assert tail[j - 1] == files[j];
      DeliverableReached(tail, states, rule, stopAfterSend, accepts, j - 1);
      SweepKeepsTail(files, states, rule, stopAfterSend, accepts, files[j]);
    } else {
      SweepSendsHead(files, states, rule, stopAfterSend, accepts);
    }
  }

  /** A connected network makes its own driver's service eligible under driver matching. */
  lemma ConnectedDriverEligible(states: seq<NetworkState>, n: Network)
    requires NetworkState(n, Connected) in states
    ensures CountEligible(ByDriver, NetworkManagerService.ServiceOfNetwork(n), states) > 0
  {
    var service := NetworkManagerService.ServiceOfNetwork(n);
    NetworkManagerService.DriverTablesInverse(n, service);
    var i :| 0 <= i < |states| && states[i] == NetworkState(n, Connected);
    assert Eligible(ByDriver, service, states[i]);
  }

  /** Past a routed first record, whatever the rest of the sweep sends and deletes, the whole sweep does too. */
  lemma SweepKeepsTail(files: seq<HeldFile>, states: seq<NetworkState>, rule: MatchRule,
                       stopAfterSend: bool, accepts: Envelope -> bool, f: HeldFile)
    requires files != [] && Routed(files[0])
    requires f.name in SweepFiles(files[1..], states, rule, stopAfterSend, accepts).deleted
    requires f.record.Readable? && f.record.envelope in SweepFiles(files[1..], states, rule, stopAfterSend, accepts).sent
    ensures f.name in SweepFiles(files, states, rule, stopAfterSend, accepts).deleted
    ensures f.record.envelope in SweepFiles(files, states, rule, stopAfterSend, accepts).sent
  {
  }

  /** A deliverable first record is sent and deleted. */
  lemma SweepSendsHead(files: seq<HeldFile>, states: seq<NetworkState>, rule: MatchRule,
                       stopAfterSend: bool, accepts: Envelope -> bool)
    requires files != [] && Deliverable(files[0], states, rule, accepts)
    ensures files[0].name in SweepFiles(files, states, rule, stopAfterSend, accepts).deleted
    ensures files[0].record.envelope in SweepFiles(files, states, rule, stopAfterSend, accepts).sent
  {
    var env := files[0].record.envelope;
    var k := SendCount(env, env.NextRoute().value.service, states, rule, stopAfterSend, accepts);
    assert k > 0;
    assert Repeat(env, k)[0] == env;
  }
}

=== FILE: hashsets.dfy ===
/**
 * java.util.HashSet modelled as a duplicate-free sequence, so that a random
 * index into the set (as the peer directories draw) is well defined.
 */
module HashSets {

  predicate NoDuplicates<T(==)>(s: seq<T>) {
    forall i, j :: 0 <= i < j < |s| ==> s[i] != s[j]
  }

  /** Set.add: the element is present afterwards and nothing else is added. */
  function Add<T(==,!new)>(s: seq<T>, x: T): (r: seq<T>)
    requires NoDuplicates(s)
    ensures NoDuplicates(r)
    ensures x in r
    ensures forall y :: y in r <==> y in s || y == x
    ensures |r| == if x in s then |s| else |s| + 1
  {
    if x in s then s else s + [x]
  }
}

=== FILE: inmemorypeerdb.dfy ===
/**
 * The in-memory peer directory (InMemoryPeerDB.java): the local peer of each
 * network, seed peers, and discovered peers indexed by id, by address, by
 * network and by service.
 */
module InMemoryPeerDB {
  import opened Wrappers
  import opened Networks
  import opened RelTypes
  import HashSets
  import Text

  datatype Store = Store(
    localPeerByNetwork: map<Network, Peer>,
    seedPeersByNetwork: map<Network, seq<Peer>>,
    peerById: map<string, Peer>,
    peerByAddress: map<string, Peer>,
    peersByNetwork: map<Network, seq<Peer>>,
    peersByService: map<string, seq<Peer>>)

  /** A freshly constructed directory: every index empty. */
  function Empty(): Store {
    Store(map[], map[], map[], map[], map[], map[])
  }

  /** What savePeer demands of a peer: a non-empty id, a network and an address. */
  predicate Savable(p: Peer) {
    p.id.Some? && p.id.value != "" && p.network.Some? && p.address.Some?
  }

  /**
   * The indices agree with the peers they hold: every peer is filed under its
   * own id, address and network, every network set is non-empty and holds no
   * duplicates, and every stored peer was savable.
   */
  ghost predicate Consistent(db: Store) {
    IdsConsistent(db.peerById) && AddressesConsistent(db.peerByAddress)
    && NetworksConsistent(db.peersByNetwork) && LocalsConsistent(db.localPeerByNetwork)
  }

  ghost predicate IdsConsistent(byId: map<string, Peer>) {
    forall id :: id in byId ==> Savable(byId[id]) && byId[id].id == Some(id)
  }

  ghost predicate AddressesConsistent(byAddress: map<string, Peer>) {
    forall a :: a in byAddress ==> Savable(byAddress[a]) && byAddress[a].address == Some(a)
  }

  ghost predicate NetworksConsistent(byNetwork: map<Network, seq<Peer>>) {
    forall n :: n in byNetwork ==>
      && |byNetwork[n]| > 0
      && HashSets.NoDuplicates(byNetwork[n])
      && forall p :: p in byNetwork[n] ==> Savable(p) && p.network == Some(n)
  }

  ghost predicate LocalsConsistent(locals: map<Network, Peer>) {
    forall n :: n in locals ==> Savable(locals[n]) && locals[n].network == Some(n)
  }

  /** The two indices nothing in the directory ever writes are still empty. */
  predicate UnwrittenIndicesEmpty(db: Store) {
    db.seedPeersByNetwork == map[] && db.peersByService == map[]
  }

  datatype Saved = Saved(ok: bool, db: Store)

  /**
   * savePeer: refuses a peer without a non-empty id, a network or an address
   * and then changes nothing; a local peer replaces the local peer of its
   * network and nothing else; any other peer is filed in the id, address and
   * network indices.  The relationship type is ignored.
   */
  function SavePeer(db: Store, p: Peer, local: bool, relType: RelType): (r: Saved)
    ensures r.ok <==> Savable(p)
    ensures !r.ok ==> r.db == db
    ensures r.ok && local ==>
      && GetLocalPeerByNetwork(r.db, p.network.value) == Some(p)
      && r.db == db.(localPeerByNetwork := r.db.localPeerByNetwork)
      && forall n :: n != p.network.value ==> GetLocalPeerByNetwork(r.db, n) == GetLocalPeerByNetwork(db, n)
    ensures r.ok && !local ==>
      && p.id.value in r.db.peerById && r.db.peerById[p.id.value] == p
      && p.address.value in r.db.peerByAddress && r.db.peerByAddress[p.address.value] == p
      && p.network.value in r.db.peersByNetwork && p in r.db.peersByNetwork[p.network.value]
      && r.db.localPeerByNetwork == db.localPeerByNetwork
      && r.db.seedPeersByNetwork == db.seedPeersByNetwork
      && r.db.peersByService == db.peersByService
    ensures r.ok && !local ==>
      && r.db.peerById.Keys == db.peerById.Keys + {p.id.value}
      && (forall id :: id in db.peerById && id != p.id.value ==> r.db.peerById[id] == db.peerById[id])
      && r.db.peerByAddress.Keys == db.peerByAddress.Keys + {p.address.value}
      && (forall a :: a in db.peerByAddress && a != p.address.value ==> r.db.peerByAddress[a] == db.peerByAddress[a])
    ensures r.ok && !local ==>
      && r.db.peersByNetwork.Keys == db.peersByNetwork.Keys + {p.network.value}
      && (forall m :: m in db.peersByNetwork && m != p.network.value ==> r.db.peersByNetwork[m] == db.peersByNetwork[m])
      && (forall q :: q in r.db.peersByNetwork[p.network.value] <==>
            q == p || (p.network.value in db.peersByNetwork && q in db.peersByNetwork[p.network.value]))
  {
    if p.id.None? || p.id.value == "" then Saved(false, db)
    else if p.network.None? then Saved(false, db)
    else if p.address.None? then Saved(false, db)
    else if local then
      Saved(true, db.(localPeerByNetwork := db.localPeerByNetwork[p.network.value := p]))
    else
      var n := p.network.value;
      var current := if n in db.peersByNetwork then db.peersByNetwork[n] else [];
      var added := if p in current then current else current + [p];
      Saved(true, db.(
        peerById := db.peerById[p.id.value := p],
        peerByAddress := db.peerByAddress[p.address.value := p],
        peersByNetwork := db.peersByNetwork[n := added]))
  }

  /** savePeer keeps the indices consistent with the peers they hold. */
  lemma SavePeerConsistent(db: Store, p: Peer, local: bool, relType: RelType)
    requires Consistent(db)
    ensures Consistent(SavePeer(db, p, local, relType).db)
  {
    if Savable(p) && local {
      assert SavePeer(db, p, local, relType).db
        == db.(localPeerByNetwork := db.localPeerByNetwork[p.network.value := p]);
    } else if Savable(p) {
      var n := p.network.value;
      var current := if n in db.peersByNetwork then db.peersByNetwork[n] else [];
      FileDiscoveredConsistent(db, p, current);
    }
  }

  /** Filing a savable peer in the id, address and network indices keeps them consistent. */
  lemma FileDiscoveredConsistent(db: Store, p: Peer, current: seq<Peer>)
    requires Consistent(db) && Savable(p)
    requires current == if p.network.value in db.peersByNetwork then db.peersByNetwork[p.network.value] else []
    ensures Consistent(db.(
      peerById := db.peerById[p.id.value := p],
      peerByAddress := db.peerByAddress[p.address.value := p],
      peersByNetwork := db.peersByNetwork[p.network.value := if p in current then current else current + [p]]))
  {
    assert IdsConsistent(db.peerById[p.id.value := p]);
    assert AddressesConsistent(db.peerByAddress[p.address.value := p]);
    FileNetworkConsistent(db.peersByNetwork, p, current);
  }

  lemma FileNetworkConsistent(byNetwork: map<Network, seq<Peer>>, p: Peer, current: seq<Peer>)
    requires NetworksConsistent(byNetwork) && Savable(p)
    requires current == if p.network.value in byNetwork then byNetwork[p.network.value] else []
    ensures NetworksConsistent(byNetwork[p.network.value := if p in current then current else current + [p]])
  {
    assert HashSets.NoDuplicates(current);
    var added := HashSets.Add(current, p);
    assert forall q :: q in added ==> Savable(q) && q.network == p.network;
  }

  /** The relationship type passed to savePeer never influences the directory. */
  lemma SavePeerIgnoresRelType(db: Store, p: Peer, local: bool, a: RelType, b: RelType)
    ensures SavePeer(db, p, local, a) == SavePeer(db, p, local, b)
  {
  }

  /**
   * findPeer: the peer filed under the probe's id if there is one, else the
   * peer filed under the probe's address, else null.
   */
  function FindPeer(db: Store, np: Peer): (r: Option<Peer>)
    ensures np.id.Some? && np.id.value in db.peerById ==> r == Some(db.peerById[np.id.value])
    ensures !(np.id.Some? && np.id.value in db.peerById) && np.address.Some? && np.address.value in db.peerByAddress
      ==> r == Some(db.peerByAddress[np.address.value])
    ensures r.None? <==>
      !(np.id.Some? && np.id.value in db.peerById) && !(np.address.Some? && np.address.value in db.peerByAddress)
  {
    if np.id.Some? && np.id.value in db.peerById then Some(db.peerById[np.id.value])
    else if np.address.Some? && np.address.value in db.peerByAddress then Some(db.peerByAddress[np.address.value])
    else None
  }

  /** After a peer is saved as a discovered peer, looking it up by its id finds it. */
  lemma FindPeerAfterSave(db: Store, p: Peer, relType: RelType, probe: Peer)
    requires Savable(p)
    requires probe.id == p.id
    ensures FindPeer(SavePeer(db, p, false, relType).db, probe) == Some(p)
  {
  }

  /** After a peer is saved as a discovered peer, a probe carrying only its address finds it. */
  lemma FindPeerByAddressAfterSave(db: Store, p: Peer, relType: RelType, probe: Peer)
    requires Savable(p)
    requires probe.id.None? && probe.address == p.address
    ensures FindPeer(SavePeer(db, p, false, relType).db, probe) == Some(p)
  {
  }

  /** numberPeersByNetwork: the size of the network's set, 0 when the network has none. */
  function NumberPeersByNetwork(db: Store, n: Network): (count: nat)
    ensures count == 0 <==> n !in db.peersByNetwork || db.peersByNetwork[n] == []
    ensures count > 0 ==> count == |db.peersByNetwork[n]|
  {
    if n !in db.peersByNetwork then 0 else |db.peersByNetwork[n]|
  }

  /** The overload taking a starting peer id: not implemented, always 0. */
  function NumberPeersByNetworkFrom(db: Store, startingId: Option<string>, n: Network): (count: nat)
    ensures count == 0
  {
    0
  }

  /** numberSeedPeersByNetwork: the size of the network's seed set, 0 when the network has none. */
  function NumberSeedPeersByNetwork(db: Store, n: Network): (count: nat)
    ensures count == 0 <==> n !in db.seedPeersByNetwork || db.seedPeersByNetwork[n] == []
    ensures count > 0 ==> count == |db.seedPeersByNetwork[n]|
  {
    if n !in db.seedPeersByNetwork || db.seedPeersByNetwork[n] == [] then 0 else |db.seedPeersByNetwork[n]|
  }

  /** Saving a discovered peer counts it on its network at most once. */
  lemma SaveCountsPeer(db: Store, p: Peer, relType: RelType)
    requires Consistent(db)
    requires Savable(p)
    ensures var after := NumberPeersByNetwork(SavePeer(db, p, false, relType).db, p.network.value);
            var before := NumberPeersByNetwork(db, p.network.value);
            after >= 1 && (after == before || after == before + 1)
    ensures forall n :: n != p.network.value ==>
      NumberPeersByNetwork(SavePeer(db, p, false, relType).db, n) == NumberPeersByNetwork(db, n)
  {
  }

  /** getLocalPeerByNetwork: the local peer saved for the network, or null; in a consistent directory it is on that network. */
  function GetLocalPeerByNetwork(db: Store, n: Network): (r: Option<Peer>)
    ensures r.None? <==> n !in db.localPeerByNetwork
    ensures Consistent(db) && r.Some? ==> Savable(r.value) && r.value.network == Some(n)
  {
    if n in db.localPeerByNetwork then Some(db.localPeerByNetwork[n]) else None
  }

  /**
   * getRandomPeerByNetwork with the evidently intended meaning: the peer at a
   * random position of the network's own set, or null when the network has no
   * peers.  `pick` is the random number; it is reduced into the set's range.
   */
  function GetRandomPeerByNetwork(db: Store, n: Network, pick: nat): (r: Option<Peer>)
    ensures r.None? <==> NumberPeersByNetwork(db, n) == 0
    ensures r.Some? ==> r.value in db.peersByNetwork[n]
  {
    if n !in db.peersByNetwork || db.peersByNetwork[n] == [] then None
    else Some(db.peersByNetwork[n][pick % |db.peersByNetwork[n]|])
  }

  /** getRandomSeedByNetwork with the evidently intended meaning: a random member of the network's seed set. */
  function GetRandomSeedByNetwork(db: Store, n: Network, pick: nat): (r: Option<Peer>)
    ensures r.None? <==> NumberSeedPeersByNetwork(db, n) == 0
    ensures r.Some? ==> r.value in db.seedPeersByNetwork[n]
  {
    if n !in db.seedPeersByNetwork || db.seedPeersByNetwork[n] == [] then None
    else Some(db.seedPeersByNetwork[n][pick % |db.seedPeersByNetwork[n]|])
  }

  /**
   * getRandomPeerByNetwork as written: the random index is drawn below the size
   * of the network's set but is used to index the array of ALL the map's
   * values, whose elements are sets, not peers.  The draw therefore throws a
   * NullPointerException (no set for the network), a ClassCastException (the
   * element is a set) or an ArrayIndexOutOfBoundsException; it never yields a peer.
   */
  function GetRandomPeerByNetworkAsWritten(db: Store, n: Network, pick: nat): (r: Outcome<Peer>)
    requires Consistent(db)
    ensures r.Fault?
    ensures n in db.peersByNetwork && pick % |db.peersByNetwork[n]| < |db.peersByNetwork| ==> r == Fault(ClassCast)
  {
    if n !in db.peersByNetwork then Fault(NullPointer)
    else
      var random := pick % |db.peersByNetwork[n]|;
      // values().toArray() holds one element, a Set, per network in the map
      if random < |db.peersByNetwork| then Fault(ClassCast) else Fault(IndexOutOfBounds)
  }

  /**
   * getRandomSeedByNetwork as written: it reads the size of the network's seed
   * set, which is never created, so it always throws a NullPointerException on
   * a directory whose seed index is empty.  Were a set present, the index
   * would land in the array of all the seed sets: ClassCastException inside
   * it, out of bounds beyond it.  An empty set draws index 0, taking the
   * random helper to return the lower bound of an empty range (that helper is
   * not part of this model); no operation ever writes a seed set, so the case
   * does not arise.
   */
  function GetRandomSeedByNetworkAsWritten(db: Store, n: Network, pick: nat): (r: Outcome<Peer>)
    requires Consistent(db)
    ensures UnwrittenIndicesEmpty(db) ==> r == Fault(NullPointer)
    ensures r.Fault?
  {
    if n !in db.seedPeersByNetwork then Fault(NullPointer)
    else
      var size := |db.seedPeersByNetwork[n]|;
      var random := if size == 0 then 0 else pick % size;
      if random < |db.seedPeersByNetwork| then Fault(ClassCast) else Fault(IndexOutOfBounds)
  }

  predicate HasId(peers: seq<Peer>, id: Option<string>) {
    exists j :: 0 <= j < |peers| && peers[j].id == id
  }

  predicate DistinctIds(peers: seq<Peer>) {
    forall i, j :: 0 <= i < j < |peers| ==> peers[i].id != peers[j].id
  }

  /**
   * Whether the doubled share size, an int product that wraps around, leaves
   * the sampling loop any draw: 0 < k < 2^30, or k < -2^30 except -2^31.
   */
  predicate SampleDraws(numPeersShare: int) {
    || 0 < numPeersShare < 0x4000_0000
    || -0x8000_0000 < numPeersShare < -0x4000_0000
  }

  /**
   * getRandomPeersToShareByNetwork: up to `numPeersShare` peers of the network
   * with pairwise distinct ids, collected from at most `maxTries` random draws;
   * stops early once enough peers are found or when a draw finds none.
   * `maxTries` is the int product `numPeersShare * 2`, which wraps around: it
   * is negative for a share size from 2^30 up, so no draw is made, and positive
   * for one below -2^30, so draws are made although no sample size can match.
   * `rand(i)` is the i-th random number; `draws` is how many were used.  Each
   * draw is the corrected GetRandomPeerByNetwork: with the draw as written
   * (GetRandomPeerByNetworkAsWritten) the first draw already throws, so as
   * written the sample fails exactly when SampleDraws(numPeersShare).
   */
  method GetRandomPeersToShareByNetwork(db: Store, n: Network, numPeersShare: int, rand: nat -> nat)
    returns (peers: seq<Peer>, draws: nat)
    requires Text.InInt32(numPeersShare)
    ensures !SampleDraws(numPeersShare) ==> peers == [] && draws == 0
    ensures |peers| <= draws
    ensures 0 < numPeersShare < 0x4000_0000 ==> |peers| <= numPeersShare && draws <= 2 * numPeersShare
    ensures numPeersShare < -0x4000_0000 ==> draws <= 2 * numPeersShare + 0x1_0000_0000
    ensures DistinctIds(peers)
    ensures peers != [] ==> n in db.peersByNetwork && forall p :: p in peers ==> p in db.peersByNetwork[n]
    ensures NumberPeersByNetwork(db, n) == 0 ==> peers == []
    ensures SampleDraws(numPeersShare) && NumberPeersByNetwork(db, n) > 0 ==> |peers| > 0
  {
    peers := [];
    draws := 0;
    var maxTries := Text.WrapInt32(numPeersShare * 2);
    var i := 0;
    while i < maxTries
      invariant 0 <= i && (maxTries > 0 ==> i <= maxTries) && (maxTries <= 0 ==> i == 0)
      invariant draws == i
      invariant numPeersShare > 0 ==> |peers| <= numPeersShare
      invariant |peers| <= i
      invariant DistinctIds(peers)
      invariant peers != [] ==> n in db.peersByNetwork && forall p :: p in peers ==> p in db.peersByNetwork[n]
      invariant NumberPeersByNetwork(db, n) == 0 ==> peers == []
      invariant NumberPeersByNetwork(db, n) > 0 && i > 0 ==> |peers| > 0
    {
      if |peers| == numPeersShare {
        break;
      }
      var np := GetRandomPeerByNetwork(db, n, rand(i));
      draws := draws + 1;
      if np.None? {
        break;
      }
      if !HasId(peers, np.value.id) {
        peers := peers + [np.value];
      }
      i := i + 1;
    }
  }

  /** findPeersByService: the service's set, or null; the service index is never written. */
  function FindPeersByService(db: Store, serviceName: string): (r: Option<seq<Peer>>)
    ensures UnwrittenIndicesEmpty(db) ==> r.None?
    ensures r.Some? ==> serviceName in db.peersByService
  {
    if serviceName in db.peersByService then Some(db.peersByService[serviceName]) else None
  }

  /** One savePeer call. */
  datatype SaveRequest = SaveRequest(peer: Peer, local: bool, relType: RelType)

  /** The directory after a sequence of savePeer calls, oldest first. */
  function SaveAll(db: Store, saves: seq<SaveRequest>): Store
    decreases |saves|
  {
    if saves == [] then db
    else
      var s := saves[0];
      SaveAll(SavePeer(db, s.peer, s.local, s.relType).db, saves[1..])
  }

  /**
   * No sequence of saves ever writes the seed or service index, so from an
   * empty directory the seed count of every network stays 0 and every service
   * lookup returns null; and the indices stay consistent.
   */
  lemma {:induction false} SavesNeverStoreSeeds(db: Store, saves: seq<SaveRequest>)
    requires UnwrittenIndicesEmpty(db) && Consistent(db)
    ensures UnwrittenIndicesEmpty(SaveAll(db, saves))
    ensures Consistent(SaveAll(db, saves))
    ensures forall n :: NumberSeedPeersByNetwork(SaveAll(db, saves), n) == 0
    decreases |saves|
  {
    if saves != [] {
      var s := saves[0];
      SavePeerConsistent(db, s.peer, s.local, s.relType);
      SavesNeverStoreSeeds(SavePeer(db, s.peer, s.local, s.relType).db, saves[1..]);
    }
  }

  /** The empty directory satisfies both invariants. */
  lemma EmptyIsConsistent()
    ensures Consistent(Empty()) && UnwrittenIndicesEmpty(Empty())
  {
  }
}

=== FILE: networkdiscovery.dfy ===
/**
 * The periodic discovery task (NetworkDiscovery.java): its configuration and
 * the rule deciding which reported networks get a peer-status request, which
 * peer each request targets, and when the sweep gives up.
 */
module NetworkDiscovery {
  import opened Wrappers
  import opened Text
  import opened Networks
  import InMemoryPeerDB
  import NetworkManagerService

  // ---------------------------------------------------------------------------
  // Configuration
  // ---------------------------------------------------------------------------

  const KeyMaxPeersTotal := "ra.networkmanager.discovery.maxPeers.total"
  const KeyMaxPeersPerNetwork := "ra.networkmanager.discovery.maxPeers.perNetwork"
  const KeyMaxPeersI2P := "ra.networkmanager.discovery.maxPeers.i2p"
  const KeyMaxPeersTor := "ra.networkmanager.discovery.maxPeers.tor"
  const KeyMaxPeersBluetooth := "ra.networkmanager.discovery.maxPeers.bluetooth"
  const KeyNumPeersShare := "ra.networkmanager.discovery.numPeersShare"

  datatype Config = Config(
    maxPeersTotal: int,
    maxPeersPerNetwork: int,
    maxPeersI2P: int,
    maxPeersTor: int,
    maxPeersBluetooth: int,
    numPeersShare: int)

  /** Every setting is a Java int. */
  predicate IntSettings(cfg: Config) {
    && InInt32(cfg.maxPeersTotal) && InInt32(cfg.maxPeersPerNetwork) && InInt32(cfg.maxPeersI2P)
    && InInt32(cfg.maxPeersTor) && InInt32(cfg.maxPeersBluetooth) && InInt32(cfg.numPeersShare)
  }

  /** The six discovery properties. */
  const DiscoveryKeys: set<string> :=
    {KeyMaxPeersTotal, KeyMaxPeersPerNetwork, KeyMaxPeersI2P, KeyMaxPeersTor, KeyMaxPeersBluetooth, KeyNumPeersShare}

  /** One setting: its default when the property is absent, otherwise the property parsed as a 32-bit integer. */
  function ReadSetting(props: map<string, string>, key: string, default: int): (r: Outcome<int>)
    ensures key !in props ==> r == Done(default)
    ensures key in props ==> r == ParseInt32(props[key])
    ensures InInt32(default) && r.Done? ==> InInt32(r.value)
  {
    if key !in props then Done(default) else ParseInt32(props[key])
  }

  /** A configured value: the default when the property is absent, the parsed property otherwise. */
  predicate Settled(props: map<string, string>, key: string, default: int, v: int) {
    if key in props then ParseInt32(props[key]) == Done(v) else v == default
  }

  /**
   * The constructor: each of the six settings from its property, or its
   * default (3000, 1500, 1500, 1000, 20 and 8) when the property is absent.  A
   * property that is not a 32-bit integer makes construction fail.
   */
  function ConfigFromProperties(props: map<string, string>): (r: Outcome<Config>)
    ensures r.Done? <==> forall key :: key in DiscoveryKeys && key in props ==> ParseInt32(props[key]).Done?
    ensures r.Done? ==>
      && Settled(props, KeyMaxPeersTotal, 3000, r.value.maxPeersTotal)
      && Settled(props, KeyMaxPeersPerNetwork, 1500, r.value.maxPeersPerNetwork)
      && Settled(props, KeyMaxPeersI2P, 1500, r.value.maxPeersI2P)
      && Settled(props, KeyMaxPeersTor, 1000, r.value.maxPeersTor)
      && Settled(props, KeyMaxPeersBluetooth, 20, r.value.maxPeersBluetooth)
      && Settled(props, KeyNumPeersShare, 8, r.value.numPeersShare)
    ensures r.Done? ==> IntSettings(r.value)
    ensures r.Fault? ==> r == Fault(NumberFormat)
  {
    var total := ReadSetting(props, KeyMaxPeersTotal, 3000);
    var perNetwork := ReadSetting(props, KeyMaxPeersPerNetwork, 1500);
    var i2p := ReadSetting(props, KeyMaxPeersI2P, 1500);
    var tor := ReadSetting(props, KeyMaxPeersTor, 1000);
    var bluetooth := ReadSetting(props, KeyMaxPeersBluetooth, 20);
    var share := ReadSetting(props, KeyNumPeersShare, 8);
    if total.Fault? || perNetwork.Fault? || i2p.Fault? || tor.Fault? || bluetooth.Fault? || share.Fault? then
      Fault(NumberFormat)
    else
      Done(Config(total.value, perNetwork.value, i2p.value, tor.value, bluetooth.value, share.value))
  }

  /** Without any discovery property the configuration is exactly the defaults. */
  lemma DefaultConfig(props: map<string, string>)
    requires KeyMaxPeersTotal !in props && KeyMaxPeersPerNetwork !in props && KeyMaxPeersI2P !in props
    requires KeyMaxPeersTor !in props && KeyMaxPeersBluetooth !in props && KeyNumPeersShare !in props
    ensures ConfigFromProperties(props) == Done(Config(3000, 1500, 1500, 1000, 20, 8))
  {
  }

  /** A sharing size written as a number is read back as that number. */
  lemma ConfiguredShareSize(props: map<string, string>, k: int)
    requires KeyMaxPeersTotal !in props && KeyMaxPeersPerNetwork !in props && KeyMaxPeersI2P !in props
    requires KeyMaxPeersTor !in props && KeyMaxPeersBluetooth !in props
    requires KeyNumPeersShare in props && props[KeyNumPeersShare] == IntToString(k)
    ensures InInt32(k) ==> ConfigFromProperties(props) == Done(Config(3000, 1500, 1500, 1000, 20, k))
    ensures !InInt32(k) ==> ConfigFromProperties(props) == Fault(NumberFormat)
  {
    ParseIntToString(k);
  }

  // ---------------------------------------------------------------------------
  // Discovery requests
  // ---------------------------------------------------------------------------

  const NetworkManagerServiceName := "ra.networkmanager.NetworkManagerService"
  const OperationPeerStatus := "PEER_STATUS"
  const OperationPeerStatusReply := "PEER_STATUS_REPLY"

  /**
   * One discovery request: the network it probes, the shared peers attached as
   * its "peers" value (absent when none were sampled), the local peer it comes
   * from, the peer it targets, whether that target is a seed, and its routing
   * slip (top last).
   */
  datatype Request = Request(
    network: Network,
    peers: Option<seq<Peer>>,
    origination: Option<Peer>,
    destination: Peer,
    seedTarget: bool,
    slip: seq<Route>)

  /**
   * What a request for network n must look like: shared peers are a non-empty
   * sample of n's peers with distinct ids, taken only when the wrapped doubled
   * share size allows a draw, and at most numPeersShare of them (for a share
   * size below -2^30, at most the wrapped doubled size); it comes from n's local peer;
   * it targets a seed exactly when n has no known peer, and otherwise one of
   * n's peers; its slip first hands it to n's local driver to SEND, then to the
   * remote driver as PEER_STATUS, and the reply route back to the network
   * manager swaps origination and destination.
   */
  ghost predicate RequestOk(db: InMemoryPeerDB.Store, cfg: Config, r: Request) {
    var n := r.network;
    && (r.peers.Some? ==>
          && 0 < |r.peers.value|
          && InMemoryPeerDB.SampleDraws(cfg.numPeersShare)
          && (cfg.numPeersShare > 0 ==> |r.peers.value| <= cfg.numPeersShare)
          && (cfg.numPeersShare < 0 ==> |r.peers.value| <= 2 * cfg.numPeersShare + 0x1_0000_0000)
          && n in db.peersByNetwork
          && (forall p :: p in r.peers.value ==> p in db.peersByNetwork[n])
          && InMemoryPeerDB.DistinctIds(r.peers.value))
    && r.origination == InMemoryPeerDB.GetLocalPeerByNetwork(db, n)
    && (r.seedTarget <==> InMemoryPeerDB.NumberPeersByNetwork(db, n) == 0)
    && (r.seedTarget ==> n in db.seedPeersByNetwork && r.destination in db.seedPeersByNetwork[n])
    && (!r.seedTarget ==> n in db.peersByNetwork && r.destination in db.peersByNetwork[n])
    && |r.slip| == 3
    && r.slip[2] == Route(Internal, NetworkManagerService.ServiceOfNetwork(n), NetworkManagerService.OperationSend, None, None)
    && r.slip[1] == Route(SimpleExternal, NetworkManagerService.ServiceOfNetwork(n), OperationPeerStatus, r.origination, Some(r.destination))
    && r.slip[0].service == NetworkManagerServiceName
    && r.slip[0].operation == OperationPeerStatusReply
    && r.slip[0].origination == r.slip[1].destination
    && r.slip[0].destination == r.slip[1].origination
  }

  /** A connected network with neither a known peer nor a seed: discovery cannot bootstrap it. */
  predicate Unbootstrappable(db: InMemoryPeerDB.Store, ns: NetworkState) {
    && ns.status == Connected
    && InMemoryPeerDB.NumberPeersByNetwork(db, ns.network) == 0
    && InMemoryPeerDB.NumberSeedPeersByNetwork(db, ns.network) == 0
  }

  /**
   * The networks the sweep as written sends requests for, in order: the
   * connected ones, up to the first unbootstrappable one, where it returns.
   */
  function TargetsAsWritten(db: InMemoryPeerDB.Store, states: seq<NetworkState>): seq<Network> {
    if states == [] then []
    else if Unbootstrappable(db, states[0]) then []
    else if states[0].status == Connected then [states[0].network] + TargetsAsWritten(db, states[1..])
    else TargetsAsWritten(db, states[1..])
  }

  /** The networks a sweep that moves on past an unbootstrappable network sends requests for. */
  function Targets(db: InMemoryPeerDB.Store, states: seq<NetworkState>): seq<Network> {
    if states == [] then []
    else if states[0].status == Connected && !Unbootstrappable(db, states[0]) then
      [states[0].network] + Targets(db, states[1..])
    else Targets(db, states[1..])
  }

  function NetworksOf(requests: seq<Request>): (ns: seq<Network>)
    ensures |ns| == |requests|
    ensures forall k :: 0 <= k < |requests| ==> ns[k] == requests[k].network
  {
    if requests == [] then [] else [requests[0].network] + NetworksOf(requests[1..])
  }

  lemma NetworksOfAppend(requests: seq<Request>, r: Request)
    ensures NetworksOf(requests + [r]) == NetworksOf(requests) + [r.network]
  {
  }

  /**
   * The request for one connected network that is not unbootstrappable.
   * `shareRand` is the random stream of the peer sample and `pick` the random
   * number choosing the target.
   */
  method BuildRequest(db: InMemoryPeerDB.Store, cfg: Config, n: Network, shareRand: nat -> nat, pick: nat)
    returns (r: Request)
    requires IntSettings(cfg)
    requires InMemoryPeerDB.NumberPeersByNetwork(db, n) > 0 || InMemoryPeerDB.NumberSeedPeersByNetwork(db, n) > 0
    ensures r.network == n
    ensures RequestOk(db, cfg, r)
  {
    var nps, _ := InMemoryPeerDB.GetRandomPeersToShareByNetwork(db, n, cfg.numPeersShare, shareRand);
    var peers := if nps != [] then Some(nps) else None;
    var orig := InMemoryPeerDB.GetLocalPeerByNetwork(db, n);
    var seedTarget := InMemoryPeerDB.NumberPeersByNetwork(db, n) == 0;
    var dest := if seedTarget then InMemoryPeerDB.GetRandomSeedByNetwork(db, n, pick)
                else InMemoryPeerDB.GetRandomPeerByNetwork(db, n, pick);
    var driver := NetworkManagerService.ServiceOfNetwork(n);
    var reply := Route(SimpleExternal, NetworkManagerServiceName, OperationPeerStatusReply, dest, orig);
    var probe := Route(SimpleExternal, driver, OperationPeerStatus, orig, dest);
    var send := Route(Internal, driver, NetworkManagerService.OperationSend, None, None);
    r := Request(n, peers, orig, dest.value, seedTarget, [reply, probe, send]);
  }

  /**
   * execute as written: walks the reported states in order and sends a request
   * for each connected network, but returns false at the first connected
   * network that has neither peers nor seeds, skipping every network after it.
   * Returns true when it got through all of them.  The i-th state uses
   * `shareRand(i)` and `pick(i)` as its random numbers.  The peer draws are
   * the corrected ones of InMemoryPeerDB.  With the draws as written, the
   * target draw at a network with peers always throws, and so does the share
   * sample whenever it draws at all (InMemoryPeerDB.SampleDraws: 0 <
   * numPeersShare < 2^30, or a share size below -2^30 other than -2^31, where
   * the doubled size wraps around to a positive one); this control flow is the
   * source's only once the draws are corrected.
   */
  method Execute(states: seq<NetworkState>, db: InMemoryPeerDB.Store, cfg: Config,
                 shareRand: nat -> nat -> nat, pick: nat -> nat)
    returns (requests: seq<Request>, completed: bool)
    requires IntSettings(cfg)
    ensures NetworksOf(requests) == TargetsAsWritten(db, states)
    ensures completed <==> forall j :: 0 <= j < |states| ==> !Unbootstrappable(db, states[j])
    ensures forall k :: 0 <= k < |requests| ==> RequestOk(db, cfg, requests[k])
  {
    requests := [];
    var i := 0;
    while i < |states|
      invariant 0 <= i <= |states|
      invariant NetworksOf(requests) + TargetsAsWritten(db, states[i..]) == TargetsAsWritten(db, states)
      invariant forall j :: 0 <= j < i ==> !Unbootstrappable(db, states[j])
      invariant forall k :: 0 <= k < |requests| ==> RequestOk(db, cfg, requests[k])
    {
      var ns := states[i];
      TargetsAsWrittenStep(db, states, i);
      if ns.status == Connected {
        if Unbootstrappable(db, ns) {
          assert NetworksOf(requests) + [] == NetworksOf(requests);
          return requests, false;
        }
        var r := BuildRequest(db, cfg, ns.network, shareRand(i), pick(i));
        ghost var before := NetworksOf(requests);
        requests := AppendRequest(db, cfg, requests, r);
        ShiftOne(before, ns.network, TargetsAsWritten(db, states[i + 1..]));
      }
      i := i + 1;
    }
    completed := true;
  }

  /**
   * execute with the evidently intended control flow: an unbootstrappable
   * network is skipped and the sweep continues with the next one.
   */
  method ExecuteContinuing(states: seq<NetworkState>, db: InMemoryPeerDB.Store, cfg: Config,
                           shareRand: nat -> nat -> nat, pick: nat -> nat)
    returns (requests: seq<Request>, completed: bool)
    requires IntSettings(cfg)
    ensures NetworksOf(requests) == Targets(db, states)
    ensures completed
    ensures forall k :: 0 <= k < |requests| ==> RequestOk(db, cfg, requests[k])
  {
    requests := [];
    var i := 0;
    while i < |states|
      invariant 0 <= i <= |states|
      invariant NetworksOf(requests) + Targets(db, states[i..]) == Targets(db, states)
      invariant forall k :: 0 <= k < |requests| ==> RequestOk(db, cfg, requests[k])
    {
      var ns := states[i];
      TargetsStep(db, states, i);
      if ns.status == Connected && !Unbootstrappable(db, ns) {
        var r := BuildRequest(db, cfg, ns.network, shareRand(i), pick(i));
        ghost var before := NetworksOf(requests);
        requests := AppendRequest(db, cfg, requests, r);
        ShiftOne(before, ns.network, Targets(db, states[i + 1..]));
      }
      i := i + 1;
    }
    completed := true;
  }

  lemma ShiftOne(done: seq<Network>, n: Network, todo: seq<Network>)
    ensures (done + [n]) + todo == done + ([n] + todo)
  {
  }

  /** One step of the as-written target list, starting at position i. */
  lemma TargetsAsWrittenStep(db: InMemoryPeerDB.Store, states: seq<NetworkState>, i: nat)
    requires i < |states|
    ensures TargetsAsWritten(db, states[i..]) ==
      if Unbootstrappable(db, states[i]) then []
      else if states[i].status == Connected then [states[i].network] + TargetsAsWritten(db, states[i + 1..])
      else TargetsAsWritten(db, states[i + 1..])
  {
    assert states[i..][0] == states[i];
    assert states[i..][1..] == states[i + 1..];
  }

  /** One step of the continuing target list, starting at position i. */
  lemma TargetsStep(db: InMemoryPeerDB.Store, states: seq<NetworkState>, i: nat)
    requires i < |states|
    ensures Targets(db, states[i..]) ==
      if states[i].status == Connected && !Unbootstrappable(db, states[i]) then [states[i].network] + Targets(db, states[i + 1..])
      else Targets(db, states[i + 1..])
  {
    assert states[i..][0] == states[i];
    assert states[i..][1..] == states[i + 1..];
  }

  /** Appending a well-formed request keeps every request well formed and extends the network list by its network. */
  function AppendRequest(db: InMemoryPeerDB.Store, cfg: Config, requests: seq<Request>, r: Request): (rs: seq<Request>)
    requires forall k :: 0 <= k < |requests| ==> RequestOk(db, cfg, requests[k])
    requires RequestOk(db, cfg, r)
    ensures NetworksOf(rs) == NetworksOf(requests) + [r.network]
    ensures forall k :: 0 <= k < |rs| ==> RequestOk(db, cfg, rs[k])
  {
    NetworksOfAppend(requests, r);
    requests + [r]
  }

  /** Only connected networks are ever probed, by either sweep. */
  lemma {:induction false} TargetsAreConnected(db: InMemoryPeerDB.Store, states: seq<NetworkState>)
    ensures forall n :: n in Targets(db, states) ==>
      exists j :: 0 <= j < |states| && states[j].network == n && states[j].status == Connected
    ensures TargetsAsWritten(db, states) <= Targets(db, states)
  {
    if states != [] {
      TargetsAreConnected(db, states[1..]);
      forall n | n in Targets(db, states)
        ensures exists j :: 0 <= j < |states| && states[j].network == n && states[j].status == Connected
      {
        if n !in Targets(db, states[1..]) {
          assert states[0].network == n && states[0].status == Connected;
        } else {
          var j :| 0 <= j < |states[1..]| && states[1..][j].network == n && states[1..][j].status == Connected;
          assert states[j + 1] == states[1..][j];
        }
      }
    }
  }

  /** Both sweeps probe the same networks exactly when no reported network is unbootstrappable. */
  lemma {:induction false} SweepsAgreeWithoutUnbootstrappable(db: InMemoryPeerDB.Store, states: seq<NetworkState>)
    requires forall j :: 0 <= j < |states| ==> !Unbootstrappable(db, states[j])
    ensures TargetsAsWritten(db, states) == Targets(db, states)
  {
    if states != [] {
      SweepsAgreeWithoutUnbootstrappable(db, states[1..]);
    }
  }

  /**
   * The early return loses work: with Tor connected but empty and I2P connected
   * with one known peer, the sweep as written probes nothing while the
   * continuing sweep probes I2P.
   */
  lemma EarlyReturnSkipsLaterNetworks()
    ensures var p := Peer(Some("peer"), Some(I2P), Some("address"));
            var db := InMemoryPeerDB.Empty().(peersByNetwork := map[I2P := [p]]);
            var states := [NetworkState(Tor, Connected), NetworkState(I2P, Connected)];
            TargetsAsWritten(db, states) == [] && Targets(db, states) == [I2P]
  {
    var p := Peer(Some("peer"), Some(I2P), Some("address"));
    var db := InMemoryPeerDB.Empty().(peersByNetwork := map[I2P := [p]]);
    var states := [NetworkState(Tor, Connected), NetworkState(I2P, Connected)];
    assert Unbootstrappable(db, states[0]);
    assert states[1..] == [NetworkState(I2P, Connected)];
    assert states[1..][1..] == [];
    assert InMemoryPeerDB.NumberPeersByNetwork(db, I2P) == 1;
    assert !Unbootstrappable(db, states[1]);
    assert Targets(db, states[1..][1..]) == [];
    assert Targets(db, states[1..]) == [I2P];
    assert Targets(db, states) == Targets(db, states[1..]);
  }
}

=== FILE: networkmanagerservice.dfy ===
/**
 * The decision logic of the network manager service
 * (NetworkManagerService.java): the registry of reported network states, the
 * transport-to-driver tables, the choice of network and route for an outgoing
 * envelope, and the message hold.
 */
module NetworkManagerService {
  import opened Wrappers
  import opened Text
  import opened Networks
  import InMemoryPeerDB

  const OperationSend := "SEND"

  /** The result codes of route selection (ResponseCodes.java). */
  datatype ResponseCode =
    | Ready
    | LocalPeerForNetworkNotAvailable
    | NextRouteMustBeAnExternalRoute
    | NextRouteNotExternal
    | ServiceNotFoundForNetwork
    | UnableToDetermineExternalRoute
    | UnableToSelectPeerNetwork

  // ---------------------------------------------------------------------------
  // Network-state registry
  // ---------------------------------------------------------------------------

  /** The registry: the last reported state of each network, keyed by the network's name. */
  type Registry = map<string, NetworkState>

  /** Every entry is filed under its own network's name. */
  ghost predicate RegistryOk(reg: Registry) {
    forall k :: k in reg ==> NetworkName(reg[k].network) == k
  }

  /**
   * updateNetworkState: an envelope whose message is not an event message
   * changes nothing; otherwise the reported state replaces its network's entry
   * and every other entry is kept.
   */
  function UpdateNetworkState(reg: Registry, e: Envelope): (r: Registry)
    ensures !e.message.EventMessage? ==> r == reg
    ensures e.message.EventMessage? ==>
      var state := e.message.state;
      && NetworkName(state.network) in r && r[NetworkName(state.network)] == state
      && r.Keys == reg.Keys + {NetworkName(state.network)}
      && forall k :: k in reg && k != NetworkName(state.network) ==> r[k] == reg[k]
  {
    if !e.message.EventMessage? then reg
    else reg[NetworkName(e.message.state.network) := e.message.state]
  }

  /** Updates keep every entry filed under its own network's name. */
  lemma UpdatePreservesRegistryOk(reg: Registry, e: Envelope)
    requires RegistryOk(reg)
    ensures RegistryOk(UpdateNetworkState(reg, e))
  {
  }

  /** The last report wins: of two reports for one network only the later is kept. */
  lemma LastReportWins(reg: Registry, first: Envelope, second: Envelope)
    requires first.message.EventMessage? && second.message.EventMessage?
    requires first.message.state.network == second.message.state.network
    ensures UpdateNetworkState(UpdateNetworkState(reg, first), second) == UpdateNetworkState(reg, second)
  {
  }

  /** LOCAL_NETWORKS: the names of every reported network. */
  function LocalNetworks(reg: Registry): (names: set<string>)
    requires RegistryOk(reg)
    ensures names == reg.Keys
  {
    set k | k in reg :: NetworkName(reg[k].network)
  }

  /** ACTIVE_NETWORKS: the names of the reported networks whose status is CONNECTED. */
  function ActiveNetworks(reg: Registry): (names: set<string>)
    requires RegistryOk(reg)
    ensures names <= LocalNetworks(reg)
    ensures forall k :: k in names <==> k in reg && reg[k].status == Connected
  {
    set k | k in reg && reg[k].status == Connected :: NetworkName(reg[k].network)
  }

  /**
   * getNetworkStatus: the stored status of a reported network; for a network
   * that never reported the source dereferences a missing entry and throws a
   * NullPointerException.
   */
  function GetNetworkStatus(reg: Registry, n: Network): (r: Outcome<NetworkStatus>)
    ensures r.Fault? <==> NetworkName(n) !in reg
    ensures r.Fault? ==> r.reason == NullPointer
    ensures r.Done? ==> (r.value == Connected <==> IsConnected(reg, n))
  {
    if NetworkName(n) !in reg then Fault(NullPointer) else Done(reg[NetworkName(n)].status)
  }

  /** isNetworkReady: whether the network's stored status is CONNECTED; fails as getNetworkStatus does. */
  function IsNetworkReady(reg: Registry, n: Network): (r: Outcome<bool>)
    ensures r.Fault? <==> NetworkName(n) !in reg
    ensures r.Done? ==> (r.value <==> IsConnected(reg, n))
  {
    match GetNetworkStatus(reg, n)
    case Fault(f) => Fault(f)
    case Done(status) => Done(status == Connected)
  }

  /** A reported network is ready exactly when it is listed among the active networks. */
  lemma ReadyIffActive(reg: Registry, n: Network)
    requires RegistryOk(reg)
    ensures IsNetworkReady(reg, n) == Done(true) <==> NetworkName(n) in ActiveNetworks(reg)
  {
  }

  /** After a network reports, it is ready exactly when the report said CONNECTED. */
  lemma ReadyAfterReport(reg: Registry, e: Envelope)
    requires e.message.EventMessage?
    ensures var n := e.message.state.network;
            IsNetworkReady(UpdateNetworkState(reg, e), n) == Done(e.message.state.status == Connected)
  {
  }

  /** A network absent from the registry, or reported in any other status, counts as not connected. */
  predicate IsConnected(reg: Registry, n: Network) {
    NetworkName(n) in reg && reg[NetworkName(n)].status == Connected
  }

  // ---------------------------------------------------------------------------
  // Transport-driver tables
  // ---------------------------------------------------------------------------

  /** getNetworkServiceFromNetwork: the driver service of each network. */
  function ServiceOfNetwork(n: Network): (service: string)
    ensures |service| > 3 && service[0] == 'r' && service[1] == 'a' && service[2] == '.'
  {
    match n
    case HTTP => "ra.http.HttpService"
    case Tor => "ra.tor.TORClientService"
    case I2P => "ra.i2p.I2PEmbeddedService"
    case Bluetooth => "ra.bluetooth.BluetoothService"
    case WiFi => "ra.wifi.WiFiService"
    case Satellite => "ra.satellite.SatelliteService"
    case FSRadio => "ra.fsradio.FullSpectrumRadioService"
    case LiFi => "ra.lifi.LiFiService"
  }

  /** getNetworkFromService: the network of a driver service, or null for any other service name. */
  function NetworkOfService(service: string): (r: Option<Network>)
    ensures r.Some? ==> ServiceOfNetwork(r.value) == service
  {
    match service
    case "ra.tor.TORClientService" => Some(Tor)
    case "ra.i2p.I2PEmbeddedService" => Some(I2P)
    case "ra.bluetooth.BluetoothService" => Some(Bluetooth)
    case "ra.wifi.WiFiService" => Some(WiFi)
    case "ra.satellite.SatelliteService" => Some(Satellite)
    case "ra.fsradio.FullSpectrumRadioService" => Some(FSRadio)
    case "ra.lifi.LiFiService" => Some(LiFi)
    case "ra.http.HttpService" => Some(HTTP)
    case _ => None
  }

  /** The two tables are inverse: every network's driver maps back to it, and only driver names map to a network. */
  lemma DriverTablesInverse(n: Network, service: string)
    ensures NetworkOfService(ServiceOfNetwork(n)) == Some(n)
    ensures NetworkOfService(service) == Some(n) <==> service == ServiceOfNetwork(n)
    ensures (forall m: Network :: ServiceOfNetwork(m) != service) ==> NetworkOfService(service) == None
  {
    DriverRoundTrip(n);
    if NetworkOfService(service).Some? {
      DriverRoundTrip(NetworkOfService(service).value);
    }
  }

  lemma DriverRoundTrip(n: Network)
    ensures NetworkOfService(ServiceOfNetwork(n)) == Some(n)
  {
    match n
    case HTTP =>
    case Tor =>
    case I2P =>
    case Bluetooth =>
    case WiFi =>
    case Satellite =>
    case FSRadio =>
    case LiFi =>
  }

  // ---------------------------------------------------------------------------
  // Route selection
  // ---------------------------------------------------------------------------

  /** How route selection edits the envelope. */
  datatype RouteEdit = NoEdit | PushRoute(pushed: Route) | RewriteRoute(rewritten: Route)

  datatype Decision = Decision(ok: bool, code: ResponseCode, edit: RouteEdit)

  function ApplyEdit(e: Envelope, edit: RouteEdit): Envelope {
    match edit
    case NoEdit => e
    case PushRoute(r) => e.AddRoute(r)
    case RewriteRoute(r) => e.(route := Some(r))
  }

  /**
   * The preferred network: the network of the next route's service when that
   * network is connected.  The source computes it and never uses it.
   */
  function PreferredNetwork(reg: Registry, e: Envelope): (r: Option<Network>)
    ensures r.Some? ==> IsConnected(reg, r.value)
  {
    if e.NextRoute().None? || !e.NextRoute().value.kind.IsExternal() then None
    else
      match NetworkOfService(e.NextRoute().value.service)
      case None => None
      case Some(n) => if IsConnected(reg, n) then Some(n) else None
  }

  /**
   * The peer's network when it is connected; for a peer without a network but
   * with an address, the network of the directory's match for it, when that
   * network is connected; otherwise none.
   */
  function SelectPeerNetwork(reg: Registry, db: InMemoryPeerDB.Store, np: Peer): (r: Option<Network>)
    ensures r.Some? ==> IsConnected(reg, r.value)
    ensures np.network.Some? ==> (r.Some? <==> IsConnected(reg, np.network.value)) && (r.Some? ==> r == np.network)
    ensures np.network.None? ==>
      (r.Some? <==>
        && np.address.Some?
        && InMemoryPeerDB.FindPeer(db, np).Some?
        && InMemoryPeerDB.FindPeer(db, np).value.network.Some?
        && IsConnected(reg, InMemoryPeerDB.FindPeer(db, np).value.network.value))
    ensures np.network.None? && r.Some? ==> r == InMemoryPeerDB.FindPeer(db, np).value.network
  {
    if np.network.None? then
      if np.address.Some? then
        var found := InMemoryPeerDB.FindPeer(db, np);
        if found.Some? && found.value.network.Some? && IsConnected(reg, found.value.network.value) then found.value.network
        else None
      else None
    else if IsConnected(reg, np.network.value) then np.network
    else None
  }

  /**
   * setExternalRoute: refuses an envelope whose next route is not external;
   * picks the peer's network (see SelectPeerNetwork); requires a local peer on
   * that network; then either pushes a new external SEND route from the local
   * peer to the peer on that network's driver, or rewrites the current simple
   * external route to be exactly that.  Any other current route is refused.
   */
  function SetExternalRoute(reg: Registry, db: InMemoryPeerDB.Store, np: Peer, e: Envelope): (r: Decision)
    ensures r.ok <==> r.code == Ready
    ensures r.code != ServiceNotFoundForNetwork && r.code != NextRouteNotExternal
    ensures !r.ok ==> r.edit == NoEdit
    ensures (e.NextRoute().None? || !e.NextRoute().value.kind.IsExternal()) <==> r.code == NextRouteMustBeAnExternalRoute
    ensures r.code == UnableToSelectPeerNetwork <==>
      r.code != NextRouteMustBeAnExternalRoute && SelectPeerNetwork(reg, db, np).None?
    ensures r.code == LocalPeerForNetworkNotAvailable <==>
      && r.code != NextRouteMustBeAnExternalRoute
      && SelectPeerNetwork(reg, db, np).Some?
      && InMemoryPeerDB.GetLocalPeerByNetwork(db, SelectPeerNetwork(reg, db, np).value).None?
    ensures r.ok ==>
      && SelectPeerNetwork(reg, db, np).Some?
      && var n := SelectPeerNetwork(reg, db, np).value;
         var lp := InMemoryPeerDB.GetLocalPeerByNetwork(db, n);
         var route := Route(SimpleExternal, ServiceOfNetwork(n), OperationSend, lp, Some(np));
         && IsConnected(reg, n)
         && lp.Some?
         && (e.route.None? ==> r.edit == PushRoute(route))
         && (e.route.Some? ==> e.route.value.kind == SimpleExternal && r.edit == RewriteRoute(route))
    ensures r.code == UnableToDetermineExternalRoute ==> e.route.Some? && e.route.value.kind != SimpleExternal
  {
    var next := e.NextRoute();
    if next.None? || !next.value.kind.IsExternal() then Decision(false, NextRouteMustBeAnExternalRoute, NoEdit)
    else
      match SelectPeerNetwork(reg, db, np)
      case None => Decision(false, UnableToSelectPeerNetwork, NoEdit)
      case Some(peerNetwork) =>
        var service := ServiceOfNetwork(peerNetwork);
        match InMemoryPeerDB.GetLocalPeerByNetwork(db, peerNetwork)
        case None => Decision(false, LocalPeerForNetworkNotAvailable, NoEdit)
        case Some(lp) =>
          if e.route.None? then
            Decision(true, Ready, PushRoute(Route(SimpleExternal, service, OperationSend, Some(lp), Some(np))))
          else if e.route.value.kind == SimpleExternal then
            var current := e.route.value;
            Decision(true, Ready, RewriteRoute(current.(service := service, operation := OperationSend, origination := Some(lp), destination := Some(np))))
          else Decision(false, UnableToDetermineExternalRoute, NoEdit)
  }

  /**
   * The preferred network never matters: two envelopes with the same current
   * route whose next routes are both external get the same decision, whatever
   * services those next routes name.
   */
  lemma PreferredNetworkIgnored(reg: Registry, db: InMemoryPeerDB.Store, np: Peer, e1: Envelope, e2: Envelope)
    requires e1.NextRoute().Some? && e1.NextRoute().value.kind.IsExternal()
    requires e2.NextRoute().Some? && e2.NextRoute().value.kind.IsExternal()
    requires e1.route == e2.route
    ensures SetExternalRoute(reg, db, np, e1) == SetExternalRoute(reg, db, np, e2)
  {
  }

  /**
   * A peer whose network is connected and has a local peer is routed: the
   * envelope ends up carrying a SEND route on that network's driver from the
   * local peer to the peer.  A peer whose network is not connected is refused.
   */
  lemma RouteReadyWhenConnected(reg: Registry, db: InMemoryPeerDB.Store, np: Peer, e: Envelope)
    requires e.NextRoute().Some? && e.NextRoute().value.kind.IsExternal()
    requires e.route.None? || e.route.value.kind == SimpleExternal
    requires np.network.Some?
    ensures var n := np.network.value;
            var r := SetExternalRoute(reg, db, np, e);
            var after := ApplyEdit(e, r.edit);
            && (!IsConnected(reg, n) ==> r.code == UnableToSelectPeerNetwork)
            && (IsConnected(reg, n) && InMemoryPeerDB.GetLocalPeerByNetwork(db, n).Some? ==>
                  && r.code == Ready
                  && var route := Route(SimpleExternal, ServiceOfNetwork(n), OperationSend, InMemoryPeerDB.GetLocalPeerByNetwork(db, n), Some(np));
                     (if e.route.None? then after.NextRoute() == Some(route) else after.route == Some(route)))
  {
  }

  // ---------------------------------------------------------------------------
  // Message hold
  // ---------------------------------------------------------------------------

  datatype Held = Held(ok: bool, hold: map<string, Envelope>)

  /**
   * sendToMessageHold: creates the envelope's record only when no record with
   * its id exists; an existing record is neither overwritten nor duplicated.
   */
  function SendToMessageHold(hold: map<string, Envelope>, e: Envelope): (r: Held)
    ensures r.ok <==> e.id !in hold
    ensures e.id in r.hold
    ensures r.ok ==> r.hold[e.id] == e
    ensures !r.ok ==> r.hold == hold
    ensures r.hold.Keys == hold.Keys + {e.id}
    ensures forall id :: id in hold ==> r.hold[id] == hold[id]
  {
    if e.id in hold then Held(false, hold) else Held(true, hold[e.id := e])
  }

  /** Holding two envelopes with the same id keeps the first and refuses the second. */
  lemma HoldKeepsFirst(hold: map<string, Envelope>, first: Envelope, second: Envelope)
    requires first.id == second.id && first.id !in hold
    ensures var once := SendToMessageHold(hold, first);
            var twice := SendToMessageHold(once.hold, second);
            once.ok && !twice.ok && twice.hold[first.id] == first
  {
  }
}

=== FILE: networks.dfy ===
/**
 * The shared vocabulary of the network manager: the transport networks, their
 * reported statuses, network peers, routes and envelopes.  These types live in
 * a common library (ra.common) that is not part of this model; they are
 * reduced here to the fields the network manager reads and writes.
 */
module Networks {
  import opened Wrappers

  /** The transport networks the network manager's switches enumerate. */
  datatype Network = HTTP | Tor | I2P | Bluetooth | WiFi | Satellite | FSRadio | LiFi

  /** Network.name(): the constant's identifier. */
  function NetworkName(n: Network): string {
    match n
    case HTTP => "HTTP"
    case Tor => "Tor"
    case I2P => "I2P"
    case Bluetooth => "Bluetooth"
    case WiFi => "WiFi"
    case Satellite => "Satellite"
    case FSRadio => "FSRadio"
    case LiFi => "LiFi"
  }

  /** Distinct networks have distinct names, so a map keyed by name holds one entry per network. */
  lemma NetworkNameInjective(a: Network, b: Network)
    ensures NetworkName(a) == NetworkName(b) <==> a == b
  {
  }

  /** The statuses a network driver reports. */
  datatype NetworkStatus =
    | NotInstalled | Waiting | Failed | Hanging | PortConflict | Connecting
    | Connected | Disconnected | Verified | Blocked | Error

  datatype NetworkState = NetworkState(network: Network, status: NetworkStatus)

  /**
   * A network peer: its id, the network it was seen on, and the address of its
   * public key.  Each may be missing (null in the source).
   */
  datatype Peer = Peer(id: Option<string>, network: Option<Network>, address: Option<string>)

  /**
   * The route classes the network manager distinguishes: an external route of
   * the SimpleExternalRoute class, an external route of some other class, and
   * a route that is not external at all.
   */
  datatype RouteKind = SimpleExternal | OtherExternal | Internal {
    predicate IsExternal() { this != Internal }
  }

  datatype Route = Route(
    kind: RouteKind,
    service: string,
    operation: string,
    origination: Option<Peer>,
    destination: Option<Peer>)

  /** The payload of an envelope: an event message carrying a network state, or anything else. */
  datatype Message = EventMessage(state: NetworkState) | OtherMessage

  /**
   * An envelope: its id, its message, its dynamic routing slip (a stack whose
   * top is the last element) and its current route.
   */
  datatype Envelope = Envelope(id: string, message: Message, slip: seq<Route>, route: Option<Route>) {

    /** DynamicRoutingSlip.peekAtNextRoute: the top of the slip, or null when it is empty. */
    function NextRoute(): (r: Option<Route>)
      ensures r.Some? <==> |slip| > 0
      ensures r.Some? ==> r.value == slip[|slip| - 1]
    {
      if |slip| == 0 then None else Some(slip[|slip| - 1])
    }

    /** Envelope.addRoute / addExternalRoute: push a route on the slip. */
    function AddRoute(r: Route): (e: Envelope)
      ensures e.NextRoute() == Some(r)
      ensures |e.slip| == |slip| + 1 && e.slip[..|slip|] == slip
      ensures e.id == id && e.message == message && e.route == route
    {
      this.(slip := slip + [r])
    }
  }
}

=== FILE: p2prelationship.dfy ===
/**
 * The per-edge acknowledgment statistics of a peer relationship
 * (P2PRelationship.java): a bounded first-in-first-out window of round-trip
 * latencies, a total-ack counter, the last ack time, integer mean and median,
 * the reliability classes, and the comma-separated form the window is stored in.
 */
module P2PRelationship {
  import opened Wrappers
  import opened Text
  import Networks

  /** The relationship types, one per network the relationship was established over. */
  datatype RelKind = HTTP | TOR | I2P | Bluetooth | WiFiDirect | Satellite | FSRadio | LiFi | IMS

  /**
   * networkToRelationship: the relationship type for a network name; "Tor"
   * maps to TOR and "WiFi" to WiFiDirect; any other name gives null, so IMS is
   * never produced.
   */
  function NetworkToRelationship(network: string): (r: Option<RelKind>)
    ensures r != Some(IMS)
    ensures r.Some? <==> exists n: Networks.Network :: Networks.NetworkName(n) == network
    ensures network == "Tor" ==> r == Some(TOR)
    ensures network == "WiFi" ==> r == Some(WiFiDirect)
    ensures r.Some? && network != "Tor" && network != "WiFi" ==> KindName(r.value) == network
  {
    match network
    case "HTTP" => assert Networks.NetworkName(Networks.HTTP) == network; Some(HTTP)
    case "Tor" => assert Networks.NetworkName(Networks.Tor) == network; Some(TOR)
    case "I2P" => assert Networks.NetworkName(Networks.I2P) == network; Some(I2P)
    case "Bluetooth" => assert Networks.NetworkName(Networks.Bluetooth) == network; Some(Bluetooth)
    case "WiFi" => assert Networks.NetworkName(Networks.WiFi) == network; Some(WiFiDirect)
    case "Satellite" => assert Networks.NetworkName(Networks.Satellite) == network; Some(Satellite)
    case "FSRadio" => assert Networks.NetworkName(Networks.FSRadio) == network; Some(FSRadio)
    case "LiFi" => assert Networks.NetworkName(Networks.LiFi) == network; Some(LiFi)
    case _ => None
  }

  /** The name of a relationship type, as the enum constant is spelled. */
  function KindName(k: RelKind): string {
    match k
    case HTTP => "HTTP"
    case TOR => "TOR"
    case I2P => "I2P"
    case Bluetooth => "Bluetooth"
    case WiFiDirect => "WiFiDirect"
    case Satellite => "Satellite"
    case FSRadio => "FSRadio"
    case LiFi => "LiFi"
    case IMS => "IMS"
  }

  /** Distinct networks get distinct relationship types. */
  lemma NetworkToRelationshipInjective(a: Networks.Network, b: Networks.Network)
    ensures NetworkToRelationship(Networks.NetworkName(a)) == NetworkToRelationship(Networks.NetworkName(b)) <==> a == b
  {
  }

  datatype Relationship = Relationship(totalAcks: int, lastAckTime: int, window: seq<int>)

  /** A freshly constructed relationship. */
  function EmptyRelationship(): Relationship {
    Relationship(0, 0, [])
  }

  // ---------------------------------------------------------------------------
  // The bounded window
  // ---------------------------------------------------------------------------

  /** Remove the oldest samples until at most `max` remain. */
  function Evict(w: seq<int>, max: nat): (r: seq<int>)
    ensures |r| == if |w| <= max then |w| else max
    ensures r == w[|w| - |r|..]
    decreases |w|
  {
    if |w| > max then Evict(w[1..], max) else w
  }

  /**
   * addAckTimeTracked: a non-positive time is not an ack and changes nothing;
   * otherwise the sample is appended, the oldest samples are dropped until at
   * most `maxAcksTracked` remain, and the total ack count goes up by one
   * whether or not anything was dropped.
   */
  function AddAckTimeTracked(rel: Relationship, t: int, maxAcksTracked: nat): (r: Relationship)
    ensures t <= 0 ==> r == rel
    ensures t > 0 ==> r.totalAcks == rel.totalAcks + 1 && r.lastAckTime == rel.lastAckTime
    ensures t > 0 ==> |r.window| == if |rel.window| + 1 <= maxAcksTracked then |rel.window| + 1 else maxAcksTracked
    ensures t > 0 ==> r.window == (rel.window + [t])[|rel.window| + 1 - |r.window|..]
    ensures t > 0 && maxAcksTracked > 0 ==> r.window[|r.window| - 1] == t
  {
    if t <= 0 then rel
    else rel.(window := Evict(rel.window + [t], maxAcksTracked), totalAcks := rel.totalAcks + 1)
  }

  /** The samples a sequence of addAckTimeTracked calls accepts: the positive ones. */
  function Accepted(samples: seq<int>): (r: seq<int>)
    ensures |r| <= |samples|
  {
    if samples == [] then []
    else (if samples[0] > 0 then [samples[0]] else []) + Accepted(samples[1..])
  }

  /** The relationship after feeding it a sequence of samples, oldest first. */
  function AddAll(rel: Relationship, samples: seq<int>, maxAcksTracked: nat): Relationship
    decreases |samples|
  {
    if samples == [] then rel else AddAll(AddAckTimeTracked(rel, samples[0], maxAcksTracked), samples[1..], maxAcksTracked)
  }

  function Last(w: seq<int>, k: nat): (r: seq<int>)
    ensures |r| == if |w| <= k then |w| else k
  {
    if |w| <= k then w else w[|w| - k..]
  }

  lemma {:induction false} EvictIsLast(w: seq<int>, max: nat)
    ensures Evict(w, max) == Last(w, max)
  {
  }

  lemma LastOfLast(w: seq<int>, rest: seq<int>, k: nat)
    ensures Last(Last(w, k) + rest, k) == Last(w + rest, k)
  {
    var a := Last(w, k);
    if |w| > k {
      var p := w[..|w| - k];
      assert w == p + a;
      assert w + rest == p + (a + rest);
      DropPrefix(p, a + rest, |rest|);
    }
  }

  lemma DropPrefix(p: seq<int>, x: seq<int>, m: nat)
    requires m <= |x|
    ensures (p + x)[|p| + m..] == x[m..]
  {
  }

  function AcceptedOne(t: int): seq<int> {
    if t > 0 then [t] else []
  }

  /** One addition keeps the window equal to the latest samples, given it was within capacity. */
  lemma AddIsLast(rel: Relationship, t: int, maxAcksTracked: nat)
    requires |rel.window| <= maxAcksTracked
    ensures AddAckTimeTracked(rel, t, maxAcksTracked).window == Last(rel.window + AcceptedOne(t), maxAcksTracked)
  {
    if t > 0 {
      EvictIsLast(rel.window + [t], maxAcksTracked);
    } else {
      assert rel.window + [] == rel.window;
    }
  }

  /** Rewriting one step of the window argument: from the step's window to the whole sequence's. */
  lemma StepIsLast(w: seq<int>, t: int, rest: seq<int>, all: seq<int>, k: nat)
    requires all == AcceptedOne(t) + rest
    ensures Last(Last(w + AcceptedOne(t), k) + rest, k) == Last(w + all, k)
  {
    LastOfLast(w + AcceptedOne(t), rest, k);
    assert w + AcceptedOne(t) + rest == w + all;
  }

  /** The window always holds, in arrival order, the most recent accepted samples, up to the capacity. */
  lemma {:induction false} WindowKeepsLatest(rel: Relationship, samples: seq<int>, maxAcksTracked: nat)
    requires |rel.window| <= maxAcksTracked
    ensures AddAll(rel, samples, maxAcksTracked).window == Last(rel.window + Accepted(samples), maxAcksTracked)
    decreases |samples|
  {
    if samples == [] {
      assert rel.window + [] == rel.window;
    } else {
      var t := samples[0];
      var next := AddAckTimeTracked(rel, t, maxAcksTracked);
      WindowKeepsLatest(next, samples[1..], maxAcksTracked);
      AddIsLast(rel, t, maxAcksTracked);
      StepIsLast(rel.window, t, Accepted(samples[1..]), Accepted(samples), maxAcksTracked);
    }
  }

  /** The total ack count goes up by exactly the number of accepted samples, evictions notwithstanding. */
  lemma {:induction false} TotalCountsAccepted(rel: Relationship, samples: seq<int>, maxAcksTracked: nat)
    ensures AddAll(rel, samples, maxAcksTracked).totalAcks == rel.totalAcks + |Accepted(samples)|
    decreases |samples|
  {
    if samples != [] {
      TotalCountsAccepted(AddAckTimeTracked(rel, samples[0], maxAcksTracked), samples[1..], maxAcksTracked);
    }
  }

  // ---------------------------------------------------------------------------
  // Mean and median
  // ---------------------------------------------------------------------------

  function Sum(w: seq<int>): int {
    if w == [] then 0 else w[0] + Sum(w[1..])
  }

  /** Java's long division, which truncates toward zero. */
  function JavaDiv(a: int, n: int): (q: int)
    requires n > 0
    ensures a >= 0 ==> q * n <= a < (q + 1) * n
    ensures a < 0 ==> (q - 1) * n < a <= q * n
  {
    if a >= 0 then a / n else -((-a) / n)
  }

  /** getAvgAckLatencyMS: the sum of the window divided by its size (the source divides by zero on an empty window). */
  function AvgAckLatency(rel: Relationship): (avg: int)
    requires |rel.window| > 0
    ensures Sum(rel.window) >= 0 ==> avg * |rel.window| <= Sum(rel.window) < (avg + 1) * |rel.window|
    ensures Sum(rel.window) < 0 ==> (avg - 1) * |rel.window| < Sum(rel.window) <= avg * |rel.window|
  {
    JavaDiv(Sum(rel.window), |rel.window|)
  }

  lemma {:induction false} SumBelow(w: seq<int>, bound: int)
    requires forall i :: 0 <= i < |w| ==> w[i] < bound
    ensures Sum(w) <= |w| * (bound - 1)
  {
    if w != [] {
      SumBelow(w[1..], bound);
    }
  }

  /** When every sample in the window is below a bound, so is the mean. */
  lemma AvgBelow(rel: Relationship, bound: int)
    requires |rel.window| > 0
    requires forall i :: 0 <= i < |rel.window| ==> rel.window[i] < bound
    ensures AvgAckLatency(rel) < bound
  {
    var n := |rel.window|;
    var s := Sum(rel.window);
    var q := AvgAckLatency(rel);
    SumBelow(rel.window, bound);
    assert s <= n * (bound - 1);
    if s >= 0 {
      assert q * n <= (bound - 1) * n;
      MulMonotone(q, bound - 1, n);
    } else {
      assert (q - 1) * n < (bound - 1) * n;
      MulStrict(q - 1, bound - 1, n);
    }
  }

  lemma MulMonotone(a: int, b: int, n: int)
    requires n > 0 && a * n <= b * n
    ensures a <= b
  {
  }

  lemma MulStrict(a: int, b: int, n: int)
    requires n > 0 && a * n < b * n
    ensures a < b
  {
  }

  predicate Sorted(s: seq<int>) {
    forall i, j :: 0 <= i < j < |s| ==> s[i] <= s[j]
  }

  function Insert(x: int, s: seq<int>): (r: seq<int>)
    requires Sorted(s)
    ensures Sorted(r)
    ensures multiset(r) == multiset(s) + multiset{x}
    ensures |r| == |s| + 1
    ensures Sum(r) == x + Sum(s)
  {
    if s == [] then [x]
    else if x <= s[0] then [x] + s
    else
      var rest := Insert(x, s[1..]);
      InsertKeepsHeadFirst(x, s, rest);
      ConsSorted(s[0], rest);
      assert s == [s[0]] + s[1..];
      [s[0]] + rest
  }

  /** Inserting something larger than the head into the tail keeps every element at least the head. */
  lemma InsertKeepsHeadFirst(x: int, s: seq<int>, rest: seq<int>)
    requires Sorted(s) && |s| > 0 && s[0] < x
    requires multiset(rest) == multiset(s[1..]) + multiset{x}
    ensures forall k :: 0 <= k < |rest| ==> s[0] <= rest[k]
  {
    forall k | 0 <= k < |rest|
      ensures s[0] <= rest[k]
    {
      assert rest[k] in multiset(rest);
      if rest[k] != x {
        assert rest[k] in multiset(s[1..]);
        var j :| 0 <= j < |s[1..]| && s[1..][j] == rest[k];
        assert s[j + 1] == rest[k];
      }
    }
  }

  lemma ConsSorted(h: int, rest: seq<int>)
    requires Sorted(rest)
    requires forall k :: 0 <= k < |rest| ==> h <= rest[k]
    ensures Sorted([h] + rest)
    ensures ([h] + rest)[1..] == rest
  {
  }

  /** The ascending sort of a window: a sorted permutation with the same sum. */
  function Sort(w: seq<int>): (r: seq<int>)
    ensures Sorted(r)
    ensures multiset(r) == multiset(w)
    ensures |r| == |w|
    ensures Sum(r) == Sum(w)
  {
    if w == [] then []
    else
      assert w == [w[0]] + w[1..];
      Insert(w[0], Sort(w[1..]))
  }

  /** Sorting an already sorted window leaves it unchanged. */
  lemma {:induction false} SortSorted(w: seq<int>)
    requires Sorted(w)
    ensures Sort(w) == w
  {
    if w != [] {
      SortSorted(w[1..]);
      assert w == [w[0]] + w[1..];
    }
  }

  /** Two sorted permutations of one another are equal: a window has one ascending order. */
  lemma {:induction false} SortedPermutationUnique(a: seq<int>, b: seq<int>)
    requires Sorted(a) && Sorted(b) && multiset(a) == multiset(b)
    ensures a == b
    decreases |a|
  {
    assert |a| == |multiset(a)| == |multiset(b)| == |b|;
    if a != [] {
      HeadsEqual(a, b);
      TailsPermutation(a, b);
      SortedPermutationUnique(a[1..], b[1..]);
      assert a == [a[0]] + a[1..];
      assert b == [b[0]] + b[1..];
    }
  }

  /** The least element of a sorted sequence comes first, so two sorted permutations start alike. */
  lemma HeadsEqual(a: seq<int>, b: seq<int>)
    requires Sorted(a) && Sorted(b) && multiset(a) == multiset(b) && |a| > 0 && |b| > 0
    ensures a[0] == b[0]
  {
    assert a[0] in multiset(b) && b[0] in multiset(a);
    var i :| 0 <= i < |a| && a[i] == b[0];
    var j :| 0 <= j < |b| && b[j] == a[0];
    assert a[0] <= a[i] && b[0] <= b[j];
  }

  lemma TailsPermutation(a: seq<int>, b: seq<int>)
    requires multiset(a) == multiset(b) && |a| > 0 && |b| > 0 && a[0] == b[0]
    ensures multiset(a[1..]) == multiset(b[1..])
  {
    assert a == [a[0]] + a[1..];
    assert b == [b[0]] + b[1..];
    assert multiset(a) == multiset{a[0]} + multiset(a[1..]);
    assert multiset(b) == multiset{b[0]} + multiset(b[1..]);
    assert multiset(a[1..]) == multiset(a) - multiset{a[0]};
    assert multiset(b[1..]) == multiset(b) - multiset{b[0]};
  }

  /** Every sorted permutation of a window is its sort. */
  lemma SortUnique(w: seq<int>)
    ensures forall s :: Sorted(s) && multiset(s) == multiset(w) ==> s == Sort(w)
  {
    forall s | Sorted(s) && multiset(s) == multiset(w)
      ensures s == Sort(w)
    {
      SortedPermutationUnique(s, Sort(w));
    }
  }

  /**
   * The median of a non-empty window: the element at position size/2 of the
   * window in ascending order, whichever sorted arrangement is taken.
   */
  function MedianValue(w: seq<int>): (m: int)
    requires |w| > 0
    ensures m in w
    ensures forall s :: Sorted(s) && multiset(s) == multiset(w) ==> |s| == |w| && m == s[|w| / 2]
  {
    var sorted := Sort(w);
    SortUnique(w);
    assert sorted[|w| / 2] in multiset(sorted);
    sorted[|w| / 2]
  }

  /** The number of samples strictly below x. */
  function CountBelow(w: seq<int>, x: int): (c: nat)
    ensures c <= |w|
  {
    if w == [] then 0 else (if w[0] < x then 1 else 0) + CountBelow(w[1..], x)
  }

  /** The number of samples at most x. */
  function CountAtMost(w: seq<int>, x: int): (c: nat)
    ensures c <= |w|
  {
    if w == [] then 0 else (if w[0] <= x then 1 else 0) + CountAtMost(w[1..], x)
  }

  lemma {:induction false} CountsOfInsert(x: int, s: seq<int>, y: int)
    requires Sorted(s)
    ensures CountBelow(Insert(x, s), y) == CountBelow([x] + s, y)
    ensures CountAtMost(Insert(x, s), y) == CountAtMost([x] + s, y)
  {
    if s != [] && x > s[0] {
      var rest := Insert(x, s[1..]);
      CountsOfInsert(x, s[1..], y);
      assert Insert(x, s) == [s[0]] + rest;
      assert ([s[0]] + rest)[1..] == rest;
      assert ([x] + s)[1..] == s;
      assert ([x] + s[1..])[1..] == s[1..];
    }
  }

  /** Sorting does not change how many samples lie below (or at most) a value. */
  lemma {:induction false} CountsOfSort(w: seq<int>, y: int)
    ensures CountBelow(Sort(w), y) == CountBelow(w, y)
    ensures CountAtMost(Sort(w), y) == CountAtMost(w, y)
  {
    if w != [] {
      CountsOfSort(w[1..], y);
      CountsOfInsert(w[0], Sort(w[1..]), y);
      assert ([w[0]] + Sort(w[1..]))[1..] == Sort(w[1..]);
    }
  }

  lemma {:induction false} NoneBelow(s: seq<int>, x: int)
    requires forall i :: 0 <= i < |s| ==> x <= s[i]
    ensures CountBelow(s, x) == 0
  {
    if s != [] {
      NoneBelow(s[1..], x);
    }
  }

  /** In a sorted window, at most h samples lie below the h-th and more than h lie at or below it. */
  lemma {:induction false} SortedRank(s: seq<int>, h: nat)
    requires Sorted(s) && h < |s|
    ensures CountBelow(s, s[h]) <= h < CountAtMost(s, s[h])
  {
    if h == 0 {
      NoneBelow(s, s[0]);
    } else {
      SortedRank(s[1..], h - 1);
      assert s[1..][h - 1] == s[h];
    }
  }

  /**
   * The median splits the window: at most half of the samples (size/2) are
   * below it, and more than that many are at or below it.
   */
  lemma MedianRank(w: seq<int>)
    requires |w| > 0
    ensures CountBelow(w, MedianValue(w)) <= |w| / 2 < CountAtMost(w, MedianValue(w))
  {
    var m := MedianValue(w);
    CountsOfSort(w, m);
    SortedRank(Sort(w), |w| / 2);
  }

  datatype Query<T> = Query(value: T, rel: Relationship)

  /**
   * getMedAckLatencyMS as written: it sorts the window IN PLACE and then reads
   * its middle element, so after the query the window is in ascending order
   * instead of arrival order.
   */
  function MedAckLatencyAsWritten(rel: Relationship): (q: Query<int>)
    requires |rel.window| > 0
    ensures q.value in rel.window
    ensures Sorted(q.rel.window) && multiset(q.rel.window) == multiset(rel.window)
    ensures |q.rel.window| == |rel.window| && q.value == q.rel.window[|rel.window| / 2]
    ensures q.rel.totalAcks == rel.totalAcks && q.rel.lastAckTime == rel.lastAckTime
  {
    Query(MedianValue(rel.window), rel.(window := Sort(rel.window)))
  }

  /**
   * A median query as written changes which sample the next addition to a full
   * window evicts: without the query the oldest sample goes; after it, the
   * smallest does, and the window is left in ascending order.
   */
  lemma MedianQueryReordersEviction(rel: Relationship, t: int, maxAcksTracked: nat)
    requires |rel.window| == maxAcksTracked > 0 && t > 0
    ensures AddAckTimeTracked(rel, t, maxAcksTracked).window == rel.window[1..] + [t]
    ensures AddAckTimeTracked(MedAckLatencyAsWritten(rel).rel, t, maxAcksTracked).window == Sort(rel.window)[1..] + [t]
  {
    AddToFull(rel, t, maxAcksTracked);
    AddToFull(MedAckLatencyAsWritten(rel).rel, t, maxAcksTracked);
  }

  /**
   * With the window [5, 1] (5 oldest) and capacity 2, adding 7 should keep
   * [1, 7] but keeps [5, 7] once the median has been read.
   */
  lemma MedianQueryEvictionExample()
    ensures var rel := Relationship(2, 0, [5, 1]);
            && AddAckTimeTracked(rel, 7, 2).window == [1, 7]
            && AddAckTimeTracked(MedAckLatencyAsWritten(rel).rel, 7, 2).window == [5, 7]
  {
    var rel := Relationship(2, 0, [5, 1]);
    SortFiveOne();
    var queried := MedAckLatencyAsWritten(rel).rel;
    assert queried.window == [1, 5];
    AddToFull(rel, 7, 2);
    AddToFull(queried, 7, 2);
    assert [5, 1][1..] + [7] == [1, 7];
    assert [1, 5][1..] + [7] == [5, 7];
  }

  lemma SortFiveOne()
    ensures Sort([5, 1]) == [1, 5]
  {
    assert [5, 1][1..] == [1];
    assert [1][1..] == [];
    assert Sort([1]) == Insert(1, []) == [1];
    assert [1][1..] == [];
    assert Insert(5, []) == [5];
    assert Insert(5, [1]) == [1] + Insert(5, []);
  }

  /** Adding to a full window drops its oldest sample. */
  lemma AddToFull(rel: Relationship, t: int, maxAcksTracked: nat)
    requires |rel.window| == maxAcksTracked > 0 && t > 0
    ensures AddAckTimeTracked(rel, t, maxAcksTracked).window == rel.window[1..] + [t]
  {
    var w := AddAckTimeTracked(rel, t, maxAcksTracked).window;
    assert w == (rel.window + [t])[1..];
  }

  /**
   * A median query as written does not change the statistics themselves: the
   * reordered window has the same mean and the same median, and querying again
   * leaves it as it is.
   */
  lemma MedianQueryKeepsStatistics(rel: Relationship)
    requires |rel.window| > 0
    ensures var q := MedAckLatencyAsWritten(rel);
            && AvgAckLatency(q.rel) == AvgAckLatency(rel)
            && MedAckLatencyAsWritten(q.rel) == q
  {
    var q := MedAckLatencyAsWritten(rel);
    SortSorted(q.rel.window);
  }

  /** getMedAckLatencyMS as evidently intended: the median, without reordering the window. */
  function MedAckLatency(rel: Relationship): (m: int)
    requires |rel.window| > 0
    ensures m in rel.window
    ensures forall s :: Sorted(s) && multiset(s) == multiset(rel.window) ==>
      |s| == |rel.window| && m == s[|rel.window| / 2]
    ensures CountBelow(rel.window, m) <= |rel.window| / 2 < CountAtMost(rel.window, m)
  {
    MedianRank(rel.window);
    MedianValue(rel.window)
  }

  /** Both median queries report the same value; only the as-written one reorders the window. */
  lemma MedianQueriesAgree(rel: Relationship)
    requires |rel.window| > 0
    ensures MedAckLatencyAsWritten(rel).value == MedAckLatency(rel)
    ensures MedAckLatencyAsWritten(rel).rel.window == Sort(rel.window)
  {
  }

  // ---------------------------------------------------------------------------
  // Reliability classes
  // ---------------------------------------------------------------------------

  /**
   * belowMaxLatency: both the mean and the median are under the limit.  Then
   * some sample is under it (the median is a sample), and a window whose every
   * sample is under it qualifies.
   */
  function BelowMaxLatency(rel: Relationship, maxLatency: int): (b: bool)
    requires |rel.window| > 0
    ensures b ==> exists i :: 0 <= i < |rel.window| && rel.window[i] < maxLatency
    ensures (forall i :: 0 <= i < |rel.window| ==> rel.window[i] < maxLatency) ==> b
  {
    AllBelowIsBelow(rel, maxLatency);
    AvgAckLatency(rel) < maxLatency && MedAckLatency(rel) < maxLatency
  }

  lemma AllBelowIsBelow(rel: Relationship, bound: int)
    requires |rel.window| > 0
    ensures (forall i :: 0 <= i < |rel.window| ==> rel.window[i] < bound) ==>
      AvgAckLatency(rel) < bound && MedAckLatency(rel) < bound
  {
    if forall i :: 0 <= i < |rel.window| ==> rel.window[i] < bound {
      AvgBelow(rel, bound);
    }
  }

  /** isReliable: more than 100 acks and mean and median under 8 seconds; the statistics are only read past the count test. */
  function IsReliable(rel: Relationship): (b: bool)
    requires rel.totalAcks > 100 ==> |rel.window| > 0
    ensures b <==> rel.totalAcks > 100 && BelowMaxLatency(rel, 8000)
  {
    rel.totalAcks > 100 && AvgAckLatency(rel) < 8000 && MedAckLatency(rel) < 8000
  }

  /** isSuperReliable: more than 1000 acks and mean and median under 4 seconds. */
  function IsSuperReliable(rel: Relationship): (b: bool)
    requires rel.totalAcks > 1000 ==> |rel.window| > 0
    ensures b <==> rel.totalAcks > 1000 && BelowMaxLatency(rel, 4000)
  {
    rel.totalAcks > 1000 && AvgAckLatency(rel) < 4000 && MedAckLatency(rel) < 4000
  }

  /** isRealTime: mean and median under one second, whatever the ack count. */
  function IsRealTime(rel: Relationship): (b: bool)
    requires |rel.window| > 0
    ensures b ==> exists i :: 0 <= i < |rel.window| && rel.window[i] < 1000
  {
    AvgAckLatency(rel) < 1000 && MedAckLatency(rel) < 1000
  }

  /** Super-reliable relationships are reliable. */
  lemma SuperReliableIsReliable(rel: Relationship)
    requires rel.totalAcks > 100 ==> |rel.window| > 0
    ensures IsSuperReliable(rel) ==> IsReliable(rel)
  {
  }

  /** Real time means below a maximum latency of 1000 ms, and does not depend on the ack count. */
  lemma RealTimeIsBelowOneSecond(rel: Relationship, totalAcks: int)
    requires |rel.window| > 0
    ensures IsRealTime(rel) == BelowMaxLatency(rel, 1000)
    ensures IsRealTime(rel) == IsRealTime(rel.(totalAcks := totalAcks))
  {
  }

  /**
   * A relationship with more than 100 acks whose every tracked sample is under
   * 8 seconds is reliable; with more than 1000 acks and every sample under 4
   * seconds it is super-reliable.
   */
  lemma FastSamplesAreReliable(rel: Relationship)
    requires |rel.window| > 0
    ensures rel.totalAcks > 100 && (forall i :: 0 <= i < |rel.window| ==> rel.window[i] < 8000) ==> IsReliable(rel)
    ensures rel.totalAcks > 1000 && (forall i :: 0 <= i < |rel.window| ==> rel.window[i] < 4000) ==> IsSuperReliable(rel)
  {
    if forall i :: 0 <= i < |rel.window| ==> rel.window[i] < 8000 {
      AvgBelow(rel, 8000);
    }
    if forall i :: 0 <= i < |rel.window| ==> rel.window[i] < 4000 {
      AvgBelow(rel, 4000);
    }
  }

  // ---------------------------------------------------------------------------
  // The comma-separated form of the window
  // ---------------------------------------------------------------------------

  /** Each sample followed by a comma. */
  function Terminated(w: seq<int>): (s: string)
    ensures w != [] ==> |s| > 0 && s[|s| - 1] == ','
  {
    if w == [] then "" else IntToString(w[0]) + "," + Terminated(w[1..])
  }

  function Render(w: seq<int>): (r: seq<string>)
    ensures |r| == |w|
    ensures forall k :: 0 <= k < |r| ==> r[k] == IntToString(w[k])
  {
    if w == [] then [] else [IntToString(w[0])] + Render(w[1..])
  }

  /**
   * getAckTimesTracked: each sample followed by a comma, with the final comma
   * cut off; on an empty window the cut throws StringIndexOutOfBoundsException.
   */
  function GetAckTimesTracked(rel: Relationship): (r: Outcome<string>)
    ensures r.Fault? <==> rel.window == []
  {
    var s := Terminated(rel.window);
    if |s| == 0 then Fault(IndexOutOfBounds) else Done(s[..|s| - 1])
  }

  function ParseAll(pieces: seq<string>): (r: Outcome<seq<int>>)
    ensures r.Done? ==> |r.value| == |pieces|
  {
    if pieces == [] then Done([])
    else
      match ParseInt(pieces[0])
      case Fault(f) => Fault(f)
      case Done(v) =>
        match ParseAll(pieces[1..])
        case Fault(f) => Fault(f)
        case Done(vs) => Done([v] + vs)
  }

  /**
   * setAckTimesTracked: split the text on commas and APPEND every parsed
   * sample to the window; a piece that is not a number throws NumberFormatException.
   */
  function SetAckTimesTracked(rel: Relationship, trackedFlattened: string): (r: Outcome<Relationship>)
    ensures r.Done? ==> |r.value.window| >= |rel.window| && r.value.window[..|rel.window|] == rel.window
    ensures r.Done? ==> r.value.totalAcks == rel.totalAcks && r.value.lastAckTime == rel.lastAckTime
  {
    match ParseAll(Split(trackedFlattened, ','))
    case Fault(f) => Fault(f)
    case Done(samples) => Done(rel.(window := rel.window + samples))
  }

  lemma {:induction false} TerminatedIsJoin(w: seq<int>)
    requires |w| > 0
    ensures var s := Terminated(w); s[..|s| - 1] == Join(Render(w), ',')
  {
    var s := Terminated(w);
    if |w| == 1 {
      assert Terminated(w[1..]) == "";
      assert Render(w) == [IntToString(w[0])];
    } else {
      TerminatedIsJoin(w[1..]);
      var rest := Terminated(w[1..]);
      assert s == IntToString(w[0]) + "," + rest;
      assert s[..|s| - 1] == IntToString(w[0]) + "," + rest[..|rest| - 1];
      assert Render(w)[1..] == Render(w[1..]);
    }
  }

  lemma {:induction false} ParseAllRender(w: seq<int>)
    ensures ParseAll(Render(w)) == Done(w)
  {
    if w != [] {
      ParseIntToString(w[0]);
      ParseAllRender(w[1..]);
      assert Render(w)[1..] == Render(w[1..]);
      assert [w[0]] + w[1..] == w;
    }
  }

  /**
   * Flattening a non-empty window and parsing the text into a relationship
   * appends exactly that window; into a fresh relationship it reproduces it.
   */
  lemma FlattenParseRoundTrip(rel: Relationship, other: Relationship)
    requires |rel.window| > 0
    ensures GetAckTimesTracked(rel).Done?
    ensures SetAckTimesTracked(other, GetAckTimesTracked(rel).value) == Done(other.(window := other.window + rel.window))
    ensures SetAckTimesTracked(EmptyRelationship(), GetAckTimesTracked(rel).value) == Done(EmptyRelationship().(window := rel.window))
  {
    ParseFlattened(rel);
    assert [] + rel.window == rel.window;
  }

  lemma FlattenIsJoin(rel: Relationship)
    requires |rel.window| > 0
    ensures GetAckTimesTracked(rel) == Done(Join(Render(rel.window), ','))
  {
    TerminatedIsJoin(rel.window);
  }

  lemma ParseFlattened(rel: Relationship)
    requires |rel.window| > 0
    ensures GetAckTimesTracked(rel).Done?
    ensures ParseAll(Split(GetAckTimesTracked(rel).value, ',')) == Done(rel.window)
  {
    FlattenIsJoin(rel);
    var pieces := Render(rel.window);
    assert forall k :: 0 <= k < |pieces| ==> Free(pieces[k], ',') && pieces[k] != "";
    SplitJoin(pieces, ',');
    ParseAllRender(rel.window);
  }
}

=== FILE: peerdb.dfy ===
/**
 * The older peer directory class (PeerDB.java): discovered peers indexed by
 * id, by address and by network, with an initialisation step that checks for
 * a database location and name.
 */
module PeerDB {
  import opened Wrappers
  import opened Networks
  import HashSets

  datatype Store = Store(
    peerById: map<string, Peer>,
    peerByAddress: map<string, Peer>,
    peersByNetwork: map<Network, seq<Peer>>,
    peersByService: map<string, seq<Peer>>,
    initialized: bool,
    location: Option<string>,
    name: Option<string>)

  /** A freshly constructed directory: empty indices, not initialised, no location or name. */
  function Empty(): Store {
    Store(map[], map[], map[], map[], false, None, None)
  }

  /** What savePeer demands of a peer: a non-empty id and a network; the address is optional. */
  predicate Savable(p: Peer) {
    p.id.Some? && p.id.value != "" && p.network.Some?
  }

  /** Every network set is non-empty, duplicate-free and holds savable peers of that network. */
  ghost predicate Consistent(db: Store) {
    forall n :: n in db.peersByNetwork ==>
      && |db.peersByNetwork[n]| > 0
      && HashSets.NoDuplicates(db.peersByNetwork[n])
      && forall p :: p in db.peersByNetwork[n] ==> Savable(p) && p.network == Some(n)
  }

  datatype Saved = Saved(ok: bool, db: Store)

  /**
   * savePeer: refuses a peer without a non-empty id or without a network and
   * then changes nothing; otherwise files the peer under its id (replacing any
   * earlier peer with that id), under its address when it has one, and in its
   * network's set.
   */
  function SavePeer(db: Store, p: Peer): (r: Saved)
    ensures r.ok <==> Savable(p)
    ensures !r.ok ==> r.db == db
    ensures r.ok ==>
      && p.id.value in r.db.peerById && r.db.peerById[p.id.value] == p
      && (forall id :: id in db.peerById && id != p.id.value ==> id in r.db.peerById && r.db.peerById[id] == db.peerById[id])
      && p.network.value in r.db.peersByNetwork && p in r.db.peersByNetwork[p.network.value]
      && (p.address.Some? ==> p.address.value in r.db.peerByAddress && r.db.peerByAddress[p.address.value] == p)
      && (p.address.None? ==> r.db.peerByAddress == db.peerByAddress)
      && r.db.initialized == db.initialized
    ensures r.ok ==>
      && r.db.peerById.Keys == db.peerById.Keys + {p.id.value}
      && (p.address.Some? ==> r.db.peerByAddress.Keys == db.peerByAddress.Keys + {p.address.value})
      && (forall a :: a in db.peerByAddress && Some(a) != p.address ==> a in r.db.peerByAddress && r.db.peerByAddress[a] == db.peerByAddress[a])
      && r.db.peersByService == db.peersByService && r.db.location == db.location && r.db.name == db.name
    ensures r.ok ==>
      && r.db.peersByNetwork.Keys == db.peersByNetwork.Keys + {p.network.value}
      && (forall m :: m in db.peersByNetwork && m != p.network.value ==> r.db.peersByNetwork[m] == db.peersByNetwork[m])
      && (forall q :: q in r.db.peersByNetwork[p.network.value] <==>
            q == p || (p.network.value in db.peersByNetwork && q in db.peersByNetwork[p.network.value]))
  {
    if p.id.None? || p.id.value == "" then Saved(false, db)
    else if p.network.None? then Saved(false, db)
    else
      var n := p.network.value;
      var byAddress := if p.address.Some? then db.peerByAddress[p.address.value := p] else db.peerByAddress;
      var current := if n in db.peersByNetwork then db.peersByNetwork[n] else [];
      var added := if p in current then current else current + [p];
      Saved(true, db.(
        peerById := db.peerById[p.id.value := p],
        peerByAddress := byAddress,
        peersByNetwork := db.peersByNetwork[n := added]))
  }

  /** savePeer keeps every network set non-empty, duplicate-free and on-network. */
  lemma SavePeerConsistent(db: Store, p: Peer)
    requires Consistent(db)
    ensures Consistent(SavePeer(db, p).db)
  {
    var r := SavePeer(db, p);
    if r.ok {
      var n := p.network.value;
      var current := if n in db.peersByNetwork then db.peersByNetwork[n] else [];
      assert r.db.peersByNetwork[n] == HashSets.Add(current, p);
    }
  }

  /** Saving a second peer with the same id replaces the first in the id index. */
  lemma ResaveOverwritesId(db: Store, p: Peer, q: Peer)
    requires Savable(p) && Savable(q) && p.id == q.id
    ensures SavePeer(SavePeer(db, p).db, q).db.peerById[p.id.value] == q
  {
  }

  /** numberPeersByNetwork: the size of the network's set, 0 when the network has none. */
  function NumberPeersByNetwork(db: Store, n: Network): (count: nat)
    ensures n !in db.peersByNetwork ==> count == 0
    ensures n in db.peersByNetwork ==> count == |db.peersByNetwork[n]|
  {
    if n !in db.peersByNetwork then 0 else |db.peersByNetwork[n]|
  }

  /**
   * randomPeer with the evidently intended meaning: null when the probe is
   * null, has no network, or its network has no set; otherwise the member of
   * that network's set at a random position (`pick` reduced into range).
   */
  function RandomPeer(db: Store, fromPeer: Option<Peer>, pick: nat): (r: Option<Peer>)
    requires Consistent(db)
    ensures r.None? <==> fromPeer.None? || fromPeer.value.network.None? || fromPeer.value.network.value !in db.peersByNetwork
    ensures r.Some? ==> r.value in db.peersByNetwork[fromPeer.value.network.value]
    ensures r.Some? ==> r.value.network == fromPeer.value.network
  {
    if fromPeer.None? || fromPeer.value.network.None? || fromPeer.value.network.value !in db.peersByNetwork then None
    else
      var peers := db.peersByNetwork[fromPeer.value.network.value];
      Some(peers[pick % |peers|])
  }

  /**
   * randomPeer as written: past the null checks it casts the Object[] returned
   * by Set.toArray() to NetworkPeer[], which throws ClassCastException; so it
   * returns null or throws and never yields a peer.
   */
  function RandomPeerAsWritten(db: Store, fromPeer: Option<Peer>, pick: nat): (r: Outcome<Option<Peer>>)
    ensures r.Done? ==> r.value.None?
    ensures fromPeer.Some? && fromPeer.value.network.Some? && fromPeer.value.network.value in db.peersByNetwork
      ==> r == Fault(ClassCast)
  {
    if fromPeer.None? || fromPeer.value.network.None? || fromPeer.value.network.value !in db.peersByNetwork then Done(None)
    else Fault(ClassCast)
  }

  /** findPeersByService: the lookup is not implemented and returns an empty list. */
  function FindPeersByService(db: Store, serviceName: string): (r: seq<Peer>)
    ensures r == []
  {
    []
  }

  datatype Initialised = Initialised(ok: bool, db: Store)

  /**
   * init: fails without a location or a name; otherwise it returns the
   * `initialized` flag, which nothing sets, so it never succeeds on a
   * directory that has not been initialised.
   */
  function Init(db: Store): (r: Initialised)
    ensures db.location.None? || db.name.None? ==> !r.ok
    ensures r.db.initialized == db.initialized
    ensures !db.initialized ==> !r.ok
  {
    if db.location.None? then Initialised(false, db)
    else if db.name.None? then Initialised(false, db)
    else Initialised(db.initialized, db)
  }

  /** No sequence of saves sets the `initialized` flag, so init fails after any of them. */
  lemma {:induction false} InitNeverSucceeds(db: Store, peers: seq<Peer>, location: string, name: string)
    requires !db.initialized
    ensures !Init(SaveAllPeers(db, peers).(location := Some(location), name := Some(name))).ok
    decreases |peers|
  {
    if peers != [] {
      InitNeverSucceeds(SavePeer(db, peers[0]).db, peers[1..], location, name);
    }
  }

  /** The directory after a sequence of savePeer calls, oldest first. */
  function SaveAllPeers(db: Store, peers: seq<Peer>): Store
    decreases |peers|
  {
    if peers == [] then db else SaveAllPeers(SavePeer(db, peers[0]).db, peers[1..])
  }
}

=== FILE: peerrelationshipsdb.dfy ===
/**
 * The peer relationship graph (PeerRelationshipsDB.java) with the graph
 * database abstracted to a list of peer node ids and a map from a directed,
 * typed edge (from, relationship type, to) to that edge's statistics.
 */
module PeerRelationshipsDB {
  import opened Wrappers
  import opened P2PRelationship
  import HashSets

  /** At most this many latencies are tracked per edge. */
  const MaxAcksTracked: nat := 50
  /** New edges of one type are only created from a peer with at most this many. */
  const MaxPeersTracked: int := 1000

  datatype EdgeKey = EdgeKey(from: string, kind: RelKind, to: string)

  datatype Graph = Graph(nodes: seq<string>, edges: map<EdgeKey, Relationship>)

  function EmptyGraph(): Graph {
    Graph([], map[])
  }

  /**
   * What every reachable graph satisfies: node ids are unique, edges join
   * existing nodes, are never self-loops, and are never of the IMS type.
   */
  ghost predicate GraphOk(g: Graph) {
    && HashSets.NoDuplicates(g.nodes)
    && forall k :: k in g.edges ==> k.from in g.nodes && k.to in g.nodes && k.from != k.to && k.kind != IMS
  }

  datatype Saved = Saved(ok: bool, g: Graph)

  /**
   * savePeer: creates a node for the id only when none exists and `autoCreate`
   * is set; it reports success either way.
   */
  function SavePeer(g: Graph, id: string, autoCreate: bool): (r: Saved)
    ensures r.ok
    ensures r.g.edges == g.edges
    ensures forall x :: x in r.g.nodes <==> x in g.nodes || (x == id && autoCreate)
    ensures HashSets.NoDuplicates(g.nodes) ==> HashSets.NoDuplicates(r.g.nodes)
  {
    if id !in g.nodes && autoCreate then Saved(true, g.(nodes := g.nodes + [id])) else Saved(true, g)
  }

  /**
   * isRelatedByNetwork: whether the typed edge exists.  The source names the
   * relationship type before its try block, so an unknown network throws a
   * NullPointerException out of the call.
   */
  function IsRelatedByNetwork(g: Graph, startPeerId: string, network: string, endPeerId: string): (r: Outcome<bool>)
    ensures r.Fault? <==> NetworkToRelationship(network).None?
    ensures r.Fault? ==> r.reason == NullPointer
    ensures r.Done? && GraphOk(g) ==> (r.value <==> GetNetworkRelationship(g, startPeerId, network, endPeerId).Some?)
  {
    if NetworkToRelationship(network).None? then Fault(NullPointer)
    else Done(EdgeKey(startPeerId, NetworkToRelationship(network).value, endPeerId) in g.edges)
  }

  datatype Related = Related(rel: Option<Relationship>, g: Graph)

  /**
   * relateByNetwork: null ids, equal ids, an unknown network or a missing node
   * give null and no change; an existing edge of that type between the two
   * nodes is reused; otherwise a new edge with empty statistics is created.
   */
  function RelateByNetwork(g: Graph, idLeftPeer: Option<string>, network: string, idRightPeer: Option<string>): (r: Related)
    ensures idLeftPeer.None? || idRightPeer.None? || idLeftPeer == idRightPeer ==> r == Related(None, g)
    ensures r.rel.None? ==> r.g == g
    ensures r.rel.Some? ==>
      && idLeftPeer.Some? && idRightPeer.Some? && NetworkToRelationship(network).Some?
      && var key := EdgeKey(idLeftPeer.value, NetworkToRelationship(network).value, idRightPeer.value);
         && key in r.g.edges && r.g.edges[key] == r.rel.value
         && r.g.nodes == g.nodes
         && (key in g.edges ==> r.g == g)
         && (key !in g.edges ==> r.rel.value == EmptyRelationship() && r.g.edges == g.edges[key := EmptyRelationship()])
  {
    if idLeftPeer.None? || idRightPeer.None? then Related(None, g)
    else if idLeftPeer.value == idRightPeer.value then Related(None, g)
    else if NetworkToRelationship(network).None? then Related(None, g)
    else if idLeftPeer.value !in g.nodes || idRightPeer.value !in g.nodes then Related(None, g)
    else
      var key := EdgeKey(idLeftPeer.value, NetworkToRelationship(network).value, idRightPeer.value);
      if key in g.edges then Related(Some(g.edges[key]), g)
      else Related(Some(EmptyRelationship()), g.(edges := g.edges[key := EmptyRelationship()]))
  }

  /** relateByNetwork keeps the graph well formed: in particular it never creates a self-loop or an IMS edge. */
  lemma RelatePreservesGraphOk(g: Graph, left: Option<string>, network: string, right: Option<string>)
    requires GraphOk(g)
    ensures GraphOk(RelateByNetwork(g, left, network, right).g)
  {
  }

  /** Relating twice is relating once: the second call finds the edge the first one made. */
  lemma RelateIdempotent(g: Graph, left: Option<string>, network: string, right: Option<string>)
    ensures var first := RelateByNetwork(g, left, network, right);
            RelateByNetwork(first.g, left, network, right) == first
  {
  }

  /** After a successful relate the edge exists. */
  lemma RelatedAfterRelate(g: Graph, left: string, network: string, right: string)
    requires NetworkToRelationship(network).Some?
    requires left != right && left in g.nodes && right in g.nodes
    ensures IsRelatedByNetwork(RelateByNetwork(g, Some(left), network, Some(right)).g, left, network, right) == Done(true)
  {
  }

  /**
   * getNetworkRelationship: the edge's statistics, or null when the network is
   * unknown, an endpoint is missing or there is no such edge.
   */
  function GetNetworkRelationship(g: Graph, idLeftPeer: string, network: string, idRightPeer: string): (r: Option<Relationship>)
    ensures r.Some? <==>
      NetworkToRelationship(network).Some? && idLeftPeer in g.nodes && idRightPeer in g.nodes
      && EdgeKey(idLeftPeer, NetworkToRelationship(network).value, idRightPeer) in g.edges
    ensures r.Some? ==> r.value == g.edges[EdgeKey(idLeftPeer, NetworkToRelationship(network).value, idRightPeer)]
  {
    if NetworkToRelationship(network).None? || idLeftPeer !in g.nodes || idRightPeer !in g.nodes then None
    else
      var key := EdgeKey(idLeftPeer, NetworkToRelationship(network).value, idRightPeer);
      if key in g.edges then Some(g.edges[key]) else None
  }

  function OutgoingOfKind(g: Graph, id: string, kind: RelKind): set<EdgeKey> {
    set k | k in g.edges && k.from == id && k.kind == kind
  }

  /** numberPeersByNetwork: the number of outgoing edges of the network's type; -1 when the network is unknown. */
  function NumberPeersByNetwork(g: Graph, id: string, network: string): (count: int)
    ensures count == -1 <==> NetworkToRelationship(network).None?
    ensures count >= 0 ==> count == |OutgoingOfKind(g, id, NetworkToRelationship(network).value)|
  {
    if NetworkToRelationship(network).None? then -1
    else |OutgoingOfKind(g, id, NetworkToRelationship(network).value)|
  }

  /**
   * removeNetworkRelationship: deletes the named edge if present and nothing
   * else; with an unknown network it fails and changes nothing.
   */
  function RemoveNetworkRelationship(g: Graph, startPeerId: string, network: string, endPeerId: string): (r: Saved)
    ensures r.ok <==> NetworkToRelationship(network).Some?
    ensures !r.ok ==> r.g == g
    ensures r.ok ==> IsRelatedByNetwork(r.g, startPeerId, network, endPeerId) == Done(false)
    ensures r.ok ==> r.g.nodes == g.nodes
    ensures r.ok ==> forall k :: k != EdgeKey(startPeerId, NetworkToRelationship(network).value, endPeerId) ==>
      (k in r.g.edges <==> k in g.edges) && (k in g.edges ==> r.g.edges[k] == g.edges[k])
  {
    if NetworkToRelationship(network).None? then Saved(false, g)
    else Saved(true, g.(edges := g.edges - {EdgeKey(startPeerId, NetworkToRelationship(network).value, endPeerId)}))
  }

  /** Removing an edge keeps the graph well formed. */
  lemma RemovePreservesGraphOk(g: Graph, startPeerId: string, network: string, endPeerId: string)
    requires GraphOk(g)
    ensures GraphOk(RemoveNetworkRelationship(g, startPeerId, network, endPeerId).g)
  {
  }

  /** Relating then removing leaves the two peers unrelated on that network. */
  lemma RemoveAfterRelate(g: Graph, left: string, network: string, right: string)
    requires NetworkToRelationship(network).Some?
    ensures var related := RelateByNetwork(g, Some(left), network, Some(right)).g;
            IsRelatedByNetwork(RemoveNetworkRelationship(related, left, network, right).g, left, network, right) == Done(false)
  {
  }

  datatype StatusSaved = StatusSaved(addedAsReliable: bool, g: Graph)

  /**
   * savePeerStatusTimes.  With an existing edge: the last ack time becomes the
   * acknowledgment time and the round trip (acknowledged minus sent) is fed to
   * the window with capacity 50; the statistics are then read to be stored,
   * which divides by zero when the window is still empty.  Without the edge:
   * the edge is created (with no sample) only when the source has at most
   * 1000 outgoing edges of that type.  The result is always false.
   */
  function SavePeerStatusTimes(g: Graph, startPeerId: string, network: string, endPeerId: string, timeSent: int, timeAcknowledged: int)
    : (r: Outcome<StatusSaved>)
    ensures r.Done? ==> !r.value.addedAsReliable && r.value.g.nodes == g.nodes
    ensures var rel := GetNetworkRelationship(g, startPeerId, network, endPeerId);
            r.Fault? <==> rel.Some? && rel.value.window == [] && timeAcknowledged - timeSent <= 0
    ensures var rel := GetNetworkRelationship(g, startPeerId, network, endPeerId);
            r.Done? && rel.Some? ==>
              var key := EdgeKey(startPeerId, NetworkToRelationship(network).value, endPeerId);
              && key in r.value.g.edges
              && r.value.g.edges == g.edges[key := r.value.g.edges[key]]
              && r.value.g.edges[key] == AddAckTimeTracked(rel.value.(lastAckTime := timeAcknowledged), timeAcknowledged - timeSent, MaxAcksTracked)
    ensures GetNetworkRelationship(g, startPeerId, network, endPeerId).None? && NumberPeersByNetwork(g, startPeerId, network) <= MaxPeersTracked
      ==> r == Done(StatusSaved(false, RelateByNetwork(g, Some(startPeerId), network, Some(endPeerId)).g))
    ensures NumberPeersByNetwork(g, startPeerId, network) > MaxPeersTracked && GetNetworkRelationship(g, startPeerId, network, endPeerId).None?
      ==> r == Done(StatusSaved(false, g))
  {
    match GetNetworkRelationship(g, startPeerId, network, endPeerId)
    case Some(rel) =>
      var updated := AddAckTimeTracked(rel.(lastAckTime := timeAcknowledged), timeAcknowledged - timeSent, MaxAcksTracked);
      if updated.window == [] then Fault(Arithmetic)
      else
        var key := EdgeKey(startPeerId, NetworkToRelationship(network).value, endPeerId);
        Done(StatusSaved(false, g.(edges := g.edges[key := updated])))
    case None =>
      if NumberPeersByNetwork(g, startPeerId, network) <= MaxPeersTracked then
        Done(StatusSaved(false, RelateByNetwork(g, Some(startPeerId), network, Some(endPeerId)).g))
      else Done(StatusSaved(false, g))
  }

  /** A new edge made by savePeerStatusTimes starts with no recorded sample. */
  lemma NewEdgeHasNoSample(g: Graph, startPeerId: string, network: string, endPeerId: string, timeSent: int, timeAcknowledged: int)
    requires GraphOk(g)
    requires GetNetworkRelationship(g, startPeerId, network, endPeerId).None?
    requires NetworkToRelationship(network).Some?
    ensures var r := SavePeerStatusTimes(g, startPeerId, network, endPeerId, timeSent, timeAcknowledged);
            var key := EdgeKey(startPeerId, NetworkToRelationship(network).value, endPeerId);
            r.Done? && (key in r.value.g.edges ==> r.value.g.edges[key].window == [] && r.value.g.edges[key].totalAcks == 0)
  {
  }

  /** savePeerStatusTimes keeps the graph well formed. */
  lemma SaveStatusPreservesGraphOk(g: Graph, startPeerId: string, network: string, endPeerId: string, timeSent: int, timeAcknowledged: int)
    requires GraphOk(g)
    ensures var r := SavePeerStatusTimes(g, startPeerId, network, endPeerId, timeSent, timeAcknowledged);
            r.Done? ==> GraphOk(r.value.g)
  {
  }

  /**
   * The path queries (least hops, lowest latency, filtered lowest latency):
   * an empty list when either endpoint has no node; otherwise the node ids of
   * the path the graph library finds, or an empty list when it finds none.
   * `found` stands for the library's answer.
   */
  function FindPath(g: Graph, fromPeerId: string, toPeerId: string, found: Option<seq<string>>): (path: seq<string>)
    ensures fromPeerId !in g.nodes || toPeerId !in g.nodes ==> path == []
    ensures found.None? ==> path == []
  {
    if fromPeerId !in g.nodes || toPeerId !in g.nodes then []
    else if found.None? then []
    else found.value
  }
}

=== FILE: reltypes.dfy ===
/**
 * The peer relationship types of RelType.java and their two name tables:
 * a partial one from relationship name to transport network and a total one
 * from network name to relationship type.
 */
module RelTypes {
  import opened Wrappers
  import opened Networks

  datatype RelType =
    | Seed | Banned | Reliable | LowLatency | NFC | Card
    | Tor | I2P | Bluetooth | WiFiDirect | Satellite | FSRadio | LiFi | IMS
    | Unknown

  /** RelType.name(): the constant's identifier. */
  function RelTypeName(r: RelType): string {
    match r
    case Seed => "Seed"
    case Banned => "Banned"
    case Reliable => "Reliable"
    case LowLatency => "LowLatency"
    case NFC => "NFC"
    case Card => "Card"
    case Tor => "Tor"
    case I2P => "I2P"
    case Bluetooth => "Bluetooth"
    case WiFiDirect => "WiFiDirect"
    case Satellite => "Satellite"
    case FSRadio => "FSRadio"
    case LiFi => "LiFi"
    case IMS => "IMS"
    case Unknown => "Unknown"
  }

  /**
   * toNetwork: the transport network a relationship name stands for, or null.
   * Only transport names are accepted, HTTP is never produced, and the name
   * accepted for Wi-Fi is the network's ("WiFi"), not the relationship's.
   */
  function ToNetwork(relType: string): (r: Option<Network>)
    ensures r.Some? ==> NetworkName(r.value) == relType
    ensures r != Some(HTTP)
  {
    match relType
    case "Tor" => Some(Network.Tor)
    case "I2P" => Some(Network.I2P)
    case "Bluetooth" => Some(Network.Bluetooth)
    case "WiFi" => Some(WiFi)
    case "Satellite" => Some(Network.Satellite)
    case "FSRadio" => Some(Network.FSRadio)
    case "LiFi" => Some(Network.LiFi)
    case _ => None
  }

  /**
   * fromNetwork: total; a listed name maps to the constant of the same name,
   * except that "WiFi" maps to WiFiDirect; any other name maps to Unknown.
   */
  function FromNetwork(network: string): (r: RelType)
    ensures r != Unknown ==> RelTypeName(r) == network || (network == "WiFi" && r == WiFiDirect)
    ensures r !in {Seed, Banned, Reliable, LowLatency}
  {
    match network
    case "NFC" => NFC
    case "Card" => Card
    case "Tor" => RelType.Tor
    case "I2P" => RelType.I2P
    case "Bluetooth" => RelType.Bluetooth
    case "WiFi" => WiFiDirect
    case "Satellite" => RelType.Satellite
    case "FSRadio" => RelType.FSRadio
    case "LiFi" => RelType.LiFi
    case "IMS" => IMS
    case _ => Unknown
  }

  /** toNetwork inverts Network.name() on every network but HTTP. */
  lemma ToNetworkInvertsName(n: Network)
    ensures ToNetwork(NetworkName(n)) == (if n == HTTP then None else Some(n))
  {
  }

  /** Names of relationship types that are not transports are refused by toNetwork. */
  lemma ToNetworkRefusesNonTransports()
    ensures forall r :: r in {Seed, Banned, Reliable, LowLatency, NFC, Card, IMS, Unknown} ==> ToNetwork(RelTypeName(r)) == None
    ensures ToNetwork("HTTP") == None
  {
  }

  /**
   * Going from a network's name to its relationship type and back through the
   * type's name recovers the network for Tor, I2P, Bluetooth, Satellite,
   * FSRadio and LiFi; HTTP has no relationship type and Wi-Fi is lost because
   * "WiFiDirect" is not a name toNetwork accepts.
   */
  lemma RelTypeRoundTrip(n: Network)
    ensures ToNetwork(RelTypeName(FromNetwork(NetworkName(n)))) == (if n in {HTTP, WiFi} then None else Some(n))
    ensures FromNetwork(NetworkName(n)) == Unknown <==> n == HTTP
  {
  }
}

=== FILE: text.dfy ===
/**
 * String helpers with the semantics of the java.lang.String and java.lang.Long
 * methods the network manager uses: startsWith, toLowerCase (ASCII letters),
 * split(",") with Java's trailing-empty-string rule, and decimal
 * Long.toString / Long.parseLong without the 64-bit range check.
 */
module Text {
  import opened Wrappers

  predicate StartsWith(s: string, prefix: string) {
    |prefix| <= |s| && s[..|prefix|] == prefix
  }

  function LowerChar(c: char): char {
    if 'A' <= c <= 'Z' then (c as int + 32) as char else c
  }

  /** String.toLowerCase restricted to ASCII letters, which is all the network names use. */
  function ToLower(s: string): (r: string)
    ensures |r| == |s|
    ensures forall i :: 0 <= i < |s| ==> r[i] == LowerChar(s[i])
  {
    if s == [] then [] else [LowerChar(s[0])] + ToLower(s[1..])
  }

  // ---------------------------------------------------------------------------
  // Splitting and joining on a separator character
  // ---------------------------------------------------------------------------

  predicate Free(s: string, sep: char) {
    forall i :: 0 <= i < |s| ==> s[i] != sep
  }

  /** Every piece between separators, empty pieces included: one more piece than separators. */
  function SplitAll(s: string, sep: char): (pieces: seq<string>)
    ensures |pieces| >= 1
    ensures forall k :: 0 <= k < |pieces| ==> Free(pieces[k], sep)
    decreases |s|
  {
    if s == [] then [""]
    else
      var rest := SplitAll(s[1..], sep);
      if s[0] == sep then [""] + rest
      else [[s[0]] + rest[0]] + rest[1..]
  }

  /** The pieces joined with the separator between consecutive pieces. */
  function Join(pieces: seq<string>, sep: char): string
    requires |pieces| >= 1
  {
    if |pieces| == 1 then pieces[0] else pieces[0] + [sep] + Join(pieces[1..], sep)
  }

  function DropTrailingEmpty(pieces: seq<string>): (r: seq<string>)
    ensures |r| <= |pieces| && r == pieces[..|r|]
    ensures |r| > 0 ==> r[|r| - 1] != ""
    ensures forall k :: |r| <= k < |pieces| ==> pieces[k] == ""
  {
    if pieces == [] then []
    else if pieces[|pieces| - 1] == "" then DropTrailingEmpty(pieces[..|pieces| - 1])
    else pieces
  }

  /**
   * String.split with a one-character regular expression and limit 0: when the
   * separator does not occur the whole string is the only piece; otherwise
   * trailing empty pieces are removed.
   */
  function Split(s: string, sep: char): (pieces: seq<string>)
    ensures Free(s, sep) ==> pieces == [s]
    ensures forall k :: 0 <= k < |pieces| ==> Free(pieces[k], sep)
    ensures !Free(s, sep) && |pieces| > 0 ==> pieces[|pieces| - 1] != ""
  {
    if Free(s, sep) then [s] else DropTrailingEmpty(SplitAll(s, sep))
  }

  lemma {:induction false} SplitAllOfFree(s: string, sep: char)
    requires Free(s, sep)
    ensures SplitAll(s, sep) == [s]
    decreases |s|
  {
    if s != [] {
      SplitAllOfFree(s[1..], sep);
      assert [s[0]] + s[1..] == s;
    }
  }

  lemma {:induction false} SplitAllPrefix(a: string, b: string, sep: char)
    requires Free(a, sep)
    ensures SplitAll(a + [sep] + b, sep) == [a] + SplitAll(b, sep)
    decreases |a|
  {
    if a == [] {
      assert a + [sep] + b == [sep] + b;
      assert ([sep] + b)[1..] == b;
    } else {
      var s := a + [sep] + b;
      assert s[0] == a[0];
      assert s[1..] == a[1..] + [sep] + b;
      SplitAllPrefix(a[1..], b, sep);
      assert [a[0]] + a[1..] == a;
    }
  }

  /** Splitting a join of separator-free pieces recovers every piece. */
  lemma {:induction false} SplitAllJoin(pieces: seq<string>, sep: char)
    requires |pieces| >= 1
    requires forall k :: 0 <= k < |pieces| ==> Free(pieces[k], sep)
    ensures SplitAll(Join(pieces, sep), sep) == pieces
    decreases |pieces|
  {
    if |pieces| == 1 {
      SplitAllOfFree(pieces[0], sep);
    } else {
      SplitAllJoin(pieces[1..], sep);
      SplitAllPrefix(pieces[0], Join(pieces[1..], sep), sep);
      assert [pieces[0]] + pieces[1..] == pieces;
    }
  }

  lemma {:induction false} JoinContainsSeparator(pieces: seq<string>, sep: char)
    requires |pieces| >= 2
    ensures !Free(Join(pieces, sep), sep)
  {
    assert Join(pieces, sep)[|pieces[0]|] == sep;
  }

  /** Java's split recovers every piece of a join when no piece is empty or holds the separator. */
  lemma SplitJoin(pieces: seq<string>, sep: char)
    requires |pieces| >= 1
    requires forall k :: 0 <= k < |pieces| ==> Free(pieces[k], sep) && pieces[k] != ""
    ensures Split(Join(pieces, sep), sep) == pieces
  {
    if |pieces| == 1 {
    } else {
      JoinContainsSeparator(pieces, sep);
      SplitAllJoin(pieces, sep);
      assert pieces[|pieces| - 1] != "";
    }
  }

  // ---------------------------------------------------------------------------
  // Decimal numbers
  // ---------------------------------------------------------------------------

  predicate IsDigit(c: char) {
    '0' <= c <= '9'
  }

  function DigitChar(d: nat): (c: char)
    requires d < 10
    ensures IsDigit(c)
  {
    ('0' as int + d) as char
  }

  function DigitValue(c: char): (d: nat)
    requires IsDigit(c)
    ensures d < 10
  {
    c as int - '0' as int
  }

  /** The decimal digits of n, most significant first, without leading zeros. */
  function NatToString(n: nat): (s: string)
    ensures |s| >= 1
    ensures forall i :: 0 <= i < |s| ==> IsDigit(s[i])
    decreases n
  {
    if n < 10 then [DigitChar(n)] else NatToString(n / 10) + [DigitChar(n % 10)]
  }

  /** The value of a non-empty string of decimal digits. */
  function DigitsValue(s: string): nat
    requires forall i :: 0 <= i < |s| ==> IsDigit(s[i])
    decreases |s|
  {
    if s == [] then 0 else DigitsValue(s[..|s| - 1]) * 10 + DigitValue(s[|s| - 1])
  }

  lemma {:induction false} DigitsValueOfNatToString(n: nat)
    ensures DigitsValue(NatToString(n)) == n
    decreases n
  {
    var s := NatToString(n);
    if n < 10 {
      assert s[..0] == [];
    } else {
      DigitsValueOfNatToString(n / 10);
      assert s[..|s| - 1] == NatToString(n / 10);
    }
  }

  /** Long.toString: an optional minus sign followed by the digits of the magnitude. */
  function IntToString(n: int): (s: string)
    ensures |s| >= 1
    ensures s != "" && s[0] != ','
    ensures Free(s, ',')
  {
    if n < 0 then "-" + NatToString(-n) else NatToString(n)
  }

  /**
   * Long.parseLong: an optional sign followed by one or more decimal digits;
   * anything else raises NumberFormatException.
   */
  function ParseInt(s: string): (r: Outcome<int>)
    ensures r.Done? ==> s != []
  {
    if s == [] then Fault(NumberFormat)
    else if s[0] == '-' || s[0] == '+' then
      var body := s[1..];
      if body != [] && forall i :: 0 <= i < |body| ==> IsDigit(body[i]) then
        var magnitude: int := DigitsValue(body);
        Done(if s[0] == '-' then -magnitude else magnitude)
      else Fault(NumberFormat)
    else if forall i :: 0 <= i < |s| ==> IsDigit(s[i]) then Done(DigitsValue(s))
    else Fault(NumberFormat)
  }

  /** Whether a value fits Java's 32-bit int. */
  predicate InInt32(v: int) {
    -0x8000_0000 <= v < 0x8000_0000
  }

  /**
   * The result of Java int arithmetic: the value reduced into the 32-bit
   * range, as two's-complement wrap-around does.
   */
  function WrapInt32(v: int): (w: int)
    ensures InInt32(w)
    ensures (v - w) % 0x1_0000_0000 == 0
    ensures InInt32(v) ==> w == v
    ensures 0x8000_0000 <= v < 0x1_8000_0000 ==> w == v - 0x1_0000_0000
    ensures -0x1_8000_0000 <= v < -0x8000_0000 ==> w == v + 0x1_0000_0000
  {
    (v + 0x8000_0000) % 0x1_0000_0000 - 0x8000_0000
  }

  /**
   * Integer.parseInt: the syntax of Long.parseLong, and a value outside the
   * 32-bit range also raises NumberFormatException.
   */
  function ParseInt32(s: string): (r: Outcome<int>)
    ensures r.Done? <==> ParseInt(s).Done? && InInt32(ParseInt(s).value)
    ensures r.Done? ==> r.value == ParseInt(s).value
    ensures r.Fault? ==> r == Fault(NumberFormat)
  {
    match ParseInt(s)
    case Done(v) => if InInt32(v) then Done(v) else Fault(NumberFormat)
    case Fault(_) => Fault(NumberFormat)
  }

  /** Parsing the decimal rendering of any integer gives that integer back. */
  lemma ParseIntToString(n: int)
    ensures ParseInt(IntToString(n)) == Done(n)
  {
    var s := IntToString(n);
    if n < 0 {
      var digits := NatToString(-n);
      assert s == "-" + digits;
      assert s[0] == '-' && s[1..] == digits;
      DigitsValueOfNatToString(-n);
    } else {
      assert s[0] != '-' && s[0] != '+' by { assert IsDigit(s[0]); }
      DigitsValueOfNatToString(n);
    }
  }
}

=== FILE: wrappers.dfy ===
/** Failure-compatible helper datatypes shared by every module of the model. */
module Wrappers {

  /** A value that may be absent; stands for a Java reference that may be null. */
  datatype Option<+T> = None | Some(value: T)

  /** The result of an operation that, in the Java source, may end in an uncaught exception. */
  datatype Outcome<+T> = Done(value: T) | Fault(reason: JavaFault)

  /** The runtime exceptions the modelled code can raise and does not catch. */
  datatype JavaFault =
    | NullPointer
    | ClassCast
    | IndexOutOfBounds
    | NumberFormat
    | Arithmetic
}
